=== FILE: README.md ===
# Map file codec

A Dafny model of the world save/load codec of the game's `Saver` class
(`src/model/Saver.py`). `save_map` writes a world to a binary file, and
`load_map` reads such a file back into a fresh `Map`. The file holds:

- the signature `'M' 'A' 'P' 0`;
- the Perlin seed;
- three counted sections for ore chunks, structure chunks and buildings;
- a noise section: the generator's `CHUNK_SIZE`, a chunk count, and per
  chunk its position, the length of the chunk value and the samples of its
  grid.

Integers are 32-bit two's-complement `i` fields, taken as little-endian.
The ore kind is a single `B` byte.

The model is split into modules:

- `Bytes`: the fields themselves.
- `Dict`: Python dicts, as insertion-ordered association lists whose
  assignment replaces a value in place.
- `Fields`: a reader combinator library, where a reader takes bytes and
  gives a value and the rest, or an error.
- `Model`: the world's data types. It also says which worlds can be packed
  and what a generated world looks like.
- `Saver`: `save_map` as `Save`/`Encode`. `load_map` appears twice: as
  written (`Load`), and as it should read the noise section (`LoadFixed`).
- `RoundTrip`, `ObjectCodec`, `NoiseCodec` and `MapFile`: the round trips,
  the truncation failures, the ore tag rejection, the last-wins rule for
  repeated keys, and the behaviour of the loader as written.
- `Sizes`: a reference byte count for every record, and the proof that the
  encoder writes exactly that many bytes.

Python's `struct.error` on a short read is the error `Truncated`. The
`ValueError` raised for a bad signature is `InvalidFormat`. The one raised
by `OreType(...)` for an unknown tag is `InvalidOreType(tag)`. A value that
does not fit its field on packing is `OutOfRange`.

## Model

| member | source | states |
|---|---|---|
| `Fields.ReadByte` | src/model/Saver.py:73 | reading a `B` field succeeds exactly when a byte is there, giving that byte and the bytes after it; otherwise it is a short read |
| `Fields.ReadI32` | src/model/Saver.py:64 | reading an `i` field succeeds exactly when four bytes are there; the value fits an `i` field and packs back to the four bytes read; otherwise it is a short read |
| `Fields.ReadWord` | src/model/Saver.py:117 | reading an `f` sample succeeds exactly when four bytes are there, giving the word those bytes pack and the bytes after them; otherwise it is a short read |
| `Fields.ReadList` | src/model/Saver.py:76-78 | the loop `for _ in range(n)` around one reader: on success it gives `n` items, and none for a count of zero or less |
| `Fields.ReadCounted` | src/model/Saver.py:74-78 | a count, then that many items: on success the four count bytes were there and the list holds as many items as the loop over the count runs |
| `Model.NewMap` | src/model/Saver.py:65 | `Map(seed)` gives a world with that seed and no ores, structures, buildings or noise chunks |
| `Dict.Lookup` | src/model/Saver.py:79-80 | `d[k]` is absent exactly when no entry has the key `k`, and a found value comes from an entry with that key |
| `Bytes.I32RoundTrip` | src/model/Saver.py:18 | a value that fits an `i` field unpacks from its four packed bytes unchanged |
| `Bytes.I32BytesOf` | src/model/Saver.py:64 | any four bytes unpack to a value that packs back to those same four bytes |
| `Fields.ReadI32Bytes` | src/model/Saver.py:64 | reading an `i` field from a packed value followed by anything gives the value and consumes exactly four bytes |
| `Dict.Put` | src/model/Saver.py:79-80 | dict assignment: the key now maps to the value and every other key's lookup is unchanged; a new key goes at the end; a present key keeps its place and the key order is unchanged |
| `Dict.PutKeepsUnique` | src/model/Saver.py:79-80 | assigning into a dict whose keys are unique leaves its keys unique |
| `Dict.FromEntriesLastWins` | src/model/Saver.py:68-80 | assigning a stream of entries one after another: each key ends up with the value of its last entry, and a key with no entry is absent |
| `Dict.FromEntriesKeys` | src/model/Saver.py:68-80 | the dict built by assignment has no repeated key, is no longer than the stream, and holds only entries from the stream |
| `Dict.FromEntriesUnique` | src/model/Saver.py:21-28 | the items of a dict, assigned back in iteration order, rebuild the same dict in the same order |
| `Saver.Save` | src/model/Saver.py:12-55 | saving succeeds exactly when every integer fits its field and otherwise fails with the packing error; a saved file is at least 28 bytes, starts with the signature, and then holds the seed as one `i` field |
| `Saver.ReadSignature` | src/model/Saver.py:58-62 | the signature check passes exactly when the first four bytes are `'M' 'A' 'P' 0`; fewer than four bytes is a short read, and any other four bytes are an invalid format |
| `Saver.LoadObjects` | src/model/Saver.py:57-106 | under four bytes, or the signature with no full seed after it, is a short read and a wrong signature is a format error; on success the seed is the `i` field after the signature and the noise chunks are still empty |
| `Saver.Load` | src/model/Saver.py:57-120 | the whole loader: a file under four bytes, or one with the signature but under eight bytes, is a short read; a wrong signature is a format error; a loaded world's seed is the field after the signature |
| `Saver.LoadFixed` | src/model/Saver.py:57-64 | the corrected loader gives the same header guarantees as `load_map` |
| `RoundTrip.PointReads` | src/model/Saver.py:69 | a point packed as an `ii` pair of fitting values reads back as the same point, whatever follows |
| `RoundTrip.PointListReads` | src/model/Saver.py:74-78 | a packed point list reads back as the same points, whatever follows |
| `RoundTrip.PointListCut` | src/model/Saver.py:74-78 | a point list cut anywhere before its end is a short read |
| `RoundTrip.OreKindReads` | src/model/Saver.py:73-79 | an ore kind whose tag is an `OreType` member reads back as its tag and points |
| `RoundTrip.OreKindRejected` | src/model/Saver.py:73 | an ore kind whose tag is not an `OreType` member fails with the error naming that tag, whatever follows |
| `RoundTrip.OreChunkReads` | src/model/Saver.py:69-80 | an ore chunk with known kinds reads back as its position and its kinds assigned into a fresh dict |
| `RoundTrip.OreChunkRejected` | src/model/Saver.py:71-79 | an ore chunk holding an unknown kind fails with an unknown-tag error |
| `RoundTrip.OresReadBack` | src/model/Saver.py:67-80 | an ore section written from real dicts with known kinds reads back as the same dict of dicts |
| `RoundTrip.OresCut` | src/model/Saver.py:67-80 | an ore section cut anywhere before its end is a short read |
| `RoundTrip.StructureChunkReads` | src/model/Saver.py:84-96 | a structure chunk reads back as its position and its structures: type, position and footprint |
| `RoundTrip.StructuresRead` | src/model/Saver.py:82-96 | a structure section reads back as its chunks assigned in stream order, so a repeated position keeps its last list |
| `RoundTrip.StructuresCut` | src/model/Saver.py:82-96 | a structure section cut anywhere before its end is a short read |
| `RoundTrip.BuildingsRead` | src/model/Saver.py:98-106 | the building section reads back as the same buildings in the same order |
| `RoundTrip.BuildingsCut` | src/model/Saver.py:98-106 | a building section cut anywhere before its end is a short read |
| `ObjectCodec.StructuresReadBack` | src/model/Saver.py:82-96 | a structure section written from a real dict reads back as that dict |
| `ObjectCodec.LoadObjectsReads` | src/model/Saver.py:57-106 | everything before the noise section reads back as the seed, ores, structures and buildings of the world, and stops exactly where the noise section starts |
| `ObjectCodec.LoadObjectsLastWins` | src/model/Saver.py:67-106 | with repeated positions, a loaded ore or structure position holds the last chunk written for it; the buildings come back as they are |
| `ObjectCodec.LoadObjectsCut` | src/model/Saver.py:57-106 | the object part of a file cut anywhere before its end is a short read |
| `ObjectCodec.LoadObjectsRejects` | src/model/Saver.py:67-80 | a world with an ore kind outside `OreType` fails to load, with the error for an unknown tag |
| `NoiseCodec.GridSquare` | src/model/Saver.py:112-117 | a grid read under chunk size `n` has `n` rows of `n` samples; a chunk size of zero or less gives no rows |
| `NoiseCodec.GridRowMajor` | src/model/Saver.py:112-117 | sample `(i, j)` of a read grid is the word at byte offset `4 * (i * n + j)`, so the samples are row-major |
| `NoiseCodec.ChunkWidthAsWritten` | src/model/Saver.py:110-117 | as written, a noise chunk takes `8 + 4 * m * m` bytes, where `m` is the stored chunk size `n`, or 0 when `n <= 0`; and a chunk cut short is a short read |
| `NoiseCodec.ChunkWidthFixed` | src/model/Saver.py:50-55 | read in step with the writer, a noise chunk takes `12 + 4 * m * m` bytes, where `m` is the stored chunk size `n`, or 0 when `n <= 0`; and a chunk cut short is a short read |
| `NoiseCodec.NoiseChunkLength` | src/model/Saver.py:50-55 | the writer's record of a chunk whose grid is `n` by `n` is `12 + 4 * n * n` bytes: position, `len(chunk)` and the samples |
| `NoiseCodec.NoiseReadsFixed` | src/model/Saver.py:48-55 | read in step with the writer, the noise section gives back each chunk's grid at its position, assigned in stream order |
| `NoiseCodec.NoiseCutFixed` | src/model/Saver.py:48-55 | read in step with the writer, a noise section cut anywhere before its end is a short read |
| `NoiseCodec.NoiseAsWritten` | src/model/Saver.py:108-118 | as written, the noise section loads without error but leaves four bytes per chunk unread in front of whatever follows |
| `NoiseCodec.NoiseSquare` | src/model/Saver.py:108-118 | the chunk size stored at the head of the noise section bounds both grid loops of every chunk: with either chunk reader, each loaded grid has that many rows of that many samples, and none for a stored size of zero or less |
| `NoiseCodec.NoiseSquareAsWritten` | src/model/Saver.py:108-118 | as written, every grid read from a noise section of square grids has the side the section stores |
| `Fields.ReadListOnly` | src/model/Saver.py:110-118 | every item of a list read by a loop over one reader has each property that every value of that reader has |
| `MapFile.LoadFixedRoundTrip` | src/model/Saver.py:12-55 | the file of a generated world, read in step with the writer, loads back as that world with each chunk reduced to its grid |
| `MapFile.SaveThenLoad` | src/model/Saver.py:12-55 | saving a generated world succeeds, and the corrected loader turns the saved bytes back into the world |
| `MapFile.LoadFixedCut` | src/model/Saver.py:57-120 | the file of a generated world cut anywhere before its end fails to load with a short read |
| `MapFile.LoadRejectsUnknownKind` | src/model/Saver.py:73 | both loaders fail on a file whose ores hold a kind outside `OreType`, with the unknown-tag error |
| `MapFile.LoadAsWritten` | src/model/Saver.py:108-118 | as written, a generated world's file loads with the right seed, ores, structures and buildings, at most as many chunks, every grid `chunkSize` rows of `chunkSize` samples, and `4 * chunks` bytes left unread |
| `MapFile.LoadAsWrittenSquare` | src/model/Saver.py:108-118 | as written, every grid loaded from a generated world's file has as many rows and samples per row as the chunk size it was saved with |
| `MapFile.MisreadNoise` | src/model/Saver.py:108-118 | as written, the noise section of the sample file reads the stored `len(chunk)` as the grid's sample |
| `MapFile.NoiseMisread` | src/model/Saver.py:108-118 | the sample world's file loads as written with the grid `[[1]]` instead of `[[5]]` and its last four bytes unread; the corrected loader gives back `[[5]]` |
| `MapFile.TruncatedStillLoads` | src/model/Saver.py:108-118 | as written, the sample file with its last four bytes cut off still loads without error; the corrected loader reports a short read |
| `Sizes.PointListLength` | src/model/Saver.py:26-28 | a point list takes `4 + 8` bytes per point |
| `Sizes.OreKindLength` | src/model/Saver.py:25-28 | an ore kind takes `1 + 4 + 8` bytes per point |
| `Sizes.OreChunkLength` | src/model/Saver.py:22-28 | an ore chunk takes `8 + 4` bytes plus the sizes of its kinds |
| `Sizes.StructureLength` | src/model/Saver.py:35-39 | a structure takes `4 + 8 + 4 + 8` bytes per footprint point |
| `Sizes.StructureChunkLength` | src/model/Saver.py:32-39 | a structure chunk takes `8 + 4` bytes plus the sizes of its structures |
| `Sizes.BuildingLength` | src/model/Saver.py:43-46 | a building takes `8 + 4 + 8` bytes per point |
| `Sizes.ObjectBytesLength` | src/model/Saver.py:13-46 | everything before the noise section takes the reference size: signature, seed, and the three counted sections |
| `Sizes.NoiseBytesLength` | src/model/Saver.py:48-55 | with square grids of side `n`, the noise section takes `8` bytes plus `12 + 4 * n * n` per chunk |
| `Sizes.EncodeLength` | src/model/Saver.py:12-55 | the file of a world with square grids takes exactly the reference size |
| `Sizes.EmptyWorldSize` | src/model/Saver.py:12-55 | the file of an empty world is 28 bytes long |

## Left out

- Byte order and field size: the formats carry no byte-order prefix, so Python packs in the machine's native order and with its native `i` size. The model fixes both: little-endian order and four-byte `i` fields.
- `Point` equality: `Point` is modelled as a value, so two points with the same `x` and `y` are the same dict key. The last-wins results depend on this: a position read twice replaces the earlier entry. `src/model/Geometry.py` is not part of this model, so it is assumed that Python's `Point` compares and hashes by `(x, y)`. With identity hashing, every loaded `Point` would be a new key and nothing would be replaced.
- File I/O: the fixed file name `map.exd`, opening, closing and flushing are left out. Both operations work on byte sequences.
- Memory exhaustion is left out: `src/model/Saver.py:114` builds the `chunk_size` by `chunk_size` grid before reading any sample, so a huge stored chunk size in a short file raises `MemoryError` in Python. The model reads samples without allocating first and reports `Truncated` for such a file.
- A partly written file is left out: `save_map` may raise partway through. `Save` returns an error, not the bytes written before the failing field.
- The `'f'` samples are left out as floats. Python narrows each float to float32 on packing, and floats too large for float32 raise. The model treats every sample as an opaque 32-bit word that the generator already holds.
- `Map(seed)` is assumed to build a world with that seed and every collection empty. `src/model/Map.py` is not part of this model.
- `OreType` is the set of accepted tag values. The enum's members, names and aliases are not part of this model.
- The Perlin generator is left out. Each noise chunk value is modelled as the grid `chunk[0]` and a count of further parts, so that `len(chunk)` is one more than that count. `src/model/Perlin.py` is not part of this model.
- The generator keys noise chunks by tuples and the loader by `Point`. Both are modelled as `Point`, so key equality between the two kinds is not modelled.
- The loader collects each section, then assigns its entries in stream order. The source assigns as it reads. The results are the same because assignment cannot fail.
- `src/vue/SettingScene.py` and the rest of the game are not part of this model.
- `Saver.LoadFixed` is not in the source. It is the corrected reading of the noise section, described under Findings.

## Findings

| source | as written | input that shows it | evidently intended | confidence | as-written member | corrected member |
|---|---|---|---|---|---|---|
| src/model/Saver.py:50-55 and src/model/Saver.py:110-117 | `save_map` writes an `i` field with `len(chunk)` after each noise chunk's position; `load_map` never reads it and takes the grid's samples straight after the position | a world with one chunk at `(0, 0)`, chunk size 1 and the single sample word 5: `load_map` gives a grid whose one sample is the word 1 (the float32 with bit pattern 1, not 1.0) and leaves the four bytes of 5 unread; the same file with those four bytes cut off still loads without error | the loader reads, or skips, the `len(chunk)` field before the grid, so that the file of a generated world loads back as that world and a cut file is a short read | high, not executed | `MapFile.NoiseMisread` | `MapFile.LoadFixedRoundTrip` |

=== FILE: bytes.dfy ===
/**
  Fixed-width primitives of the save file: unsigned bytes and 32-bit words in
  little-endian order. A signed 32-bit integer is stored as the word holding
  its two's-complement bit pattern, which is what a native `struct` pack of an
  `i` field produces on a little-endian machine.
 */
module Bytes {

  type byte = b: int | 0 <= b < 0x100

  /** A 32-bit word: an `int32` bit pattern or the bits of a binary32 sample. */
  type uint32 = w: int | 0 <= w < 0x1_0000_0000

  const MIN_INT32: int := -0x8000_0000
  const MAX_INT32: int := 0x7fff_ffff

  /** The values a signed 32-bit field can hold. */
  predicate IsInt32(v: int) {
    MIN_INT32 <= v <= MAX_INT32
  }

  /** The four bytes of a word, least significant first. */
  function WordBytes(w: uint32): (r: seq<byte>)
    ensures |r| == 4
  {
    var q1 := w / 0x100;
    var q2 := q1 / 0x100;
    [w % 0x100, q1 % 0x100, q2 % 0x100, q2 / 0x100]
  }

  /** The word whose little-endian bytes are `b`. */
  function WordOf(b: seq<byte>): uint32
    requires |b| == 4
  {
    (b[0] as int) + 0x100 * (b[1] as int) + 0x1_0000 * (b[2] as int) + 0x100_0000 * (b[3] as int)
  }

  /** Reading back the bytes of a word gives the word. */
  lemma WordOfBytes(w: uint32)
    ensures WordOf(WordBytes(w)) == w
  {
    var q1 := w / 0x100;
    var q2 := q1 / 0x100;
    assert w == w % 0x100 + 0x100 * q1;
    assert q1 == q1 % 0x100 + 0x100 * q2;
    assert q2 == q2 % 0x100 + 0x100 * (q2 / 0x100);
  }

  /** Every four bytes are the encoding of exactly one word. */
  lemma BytesOfWord(b: seq<byte>)
    requires |b| == 4
    ensures WordBytes(WordOf(b)) == b
  {
    var w := WordOf(b);
    var q1 := (b[1] as int) + 0x100 * (b[2] as int) + 0x1_0000 * (b[3] as int);
    var q2 := (b[2] as int) + 0x100 * (b[3] as int);
    assert w == b[0] + 0x100 * q1;
    assert w % 0x100 == b[0] && w / 0x100 == q1;
    assert q1 == b[1] + 0x100 * q2;
    assert q1 % 0x100 == b[1] && q1 / 0x100 == q2;
    assert q2 % 0x100 == b[2] && q2 / 0x100 == b[3];
  }

  /** The bytes of a signed 32-bit field: the two's-complement word, wrapped modulo 2^32. */
  function I32Bytes(v: int): (r: seq<byte>)
    ensures |r| == 4
  {
    WordBytes(v % 0x1_0000_0000)
  }

  /** The signed value of four bytes read as a two's-complement word. */
  function I32Of(b: seq<byte>): (v: int)
    requires |b| == 4
    ensures IsInt32(v)
    ensures v % 0x1_0000_0000 == WordOf(b)
  {
    var u := WordOf(b);
    if u <= MAX_INT32 then u else u - 0x1_0000_0000
  }

  /** A signed field decodes to the value that was packed, when that value fits. */
  lemma I32RoundTrip(v: int)
    requires IsInt32(v)
    ensures I32Of(I32Bytes(v)) == v
  {
    WordOfBytes(v % 0x1_0000_0000);
  }

  /** Re-encoding a decoded signed field gives back its four bytes. */
  lemma I32BytesOf(b: seq<byte>)
    requires |b| == 4
    ensures I32Bytes(I32Of(b)) == b
  {
    BytesOfWord(b);
  }

  /** The single byte of a `B` field; `Save` only packs values below 256. */
  function ByteOf(v: int): byte {
    v % 0x100
  }
}

=== FILE: dict.dfy ===
/**
  Python dictionaries as insertion-ordered association lists. Iterating a dict
  visits its keys in the order they were first inserted, and assigning to a
  key that is already present replaces its value without moving it.
 */
module Dict {
  import opened Fields

  type Dict<K, V> = seq<(K, V)>

  /** The keys of `d`, in iteration order. */
  function Keys<K, V>(d: Dict<K, V>): (r: seq<K>)
    ensures |r| == |d|
    ensures forall i :: 0 <= i < |d| ==> r[i] == d[i].0
  {
    if |d| == 0 then [] else [d[0].0] + Keys(d[1..])
  }

  /** No key occurs twice: what every real dict satisfies. */
  ghost predicate UniqueKeys<K, V>(d: Dict<K, V>) {
    forall i, j :: 0 <= i < j < |d| ==> d[i].0 != d[j].0
  }

  /** `d[k]`, or None when `k` is absent. */
  function Lookup<K(==), V>(d: Dict<K, V>, k: K): (r: Option<V>)
    ensures r.None? <==> forall i :: 0 <= i < |d| ==> d[i].0 != k
    ensures r.Some? ==> exists i :: 0 <= i < |d| && d[i] == (k, r.value)
  {
    if |d| == 0 then None
    else if d[0].0 == k then Some(d[0].1)
    else Lookup(d[1..], k)
  }

  /** The assignment `d[k] = v`. */
  function Put<K(==,!new), V>(d: Dict<K, V>, k: K, v: V): (r: Dict<K, V>)
    ensures Lookup(r, k) == Some(v)
    ensures forall k' :: k' != k ==> Lookup(r, k') == Lookup(d, k')
    ensures Lookup(d, k).None? ==> r == d + [(k, v)]
    ensures Lookup(d, k).Some? ==> |r| == |d| && Keys(r) == Keys(d)
    ensures forall i :: 0 <= i < |r| ==> r[i] == (k, v) || r[i] in d
  {
    if |d| == 0 then [(k, v)]
    else if d[0].0 == k then [(k, v)] + d[1..]
    else [d[0]] + Put(d[1..], k, v)
  }

  /** Assignment keeps the keys of a dict unique. */
  lemma {:induction false} PutKeepsUnique<K(!new), V>(d: Dict<K, V>, k: K, v: V)
    requires UniqueKeys(d)
    ensures UniqueKeys(Put(d, k, v))
  {
    if |d| > 0 && d[0].0 != k {
      var tail := d[1..];
      assert UniqueKeys(tail) by {
        forall i, j | 0 <= i < j < |tail| ensures tail[i].0 != tail[j].0 {
          assert tail[i] == d[i + 1] && tail[j] == d[j + 1];
        }
      }
      PutKeepsUnique(tail, k, v);
      var r := Put(d, k, v);
      forall i, j | 0 <= i < j < |r| ensures r[i].0 != r[j].0 {
        if i == 0 {
          assert r[j] == Put(tail, k, v)[j - 1];
          assert r[j] == (k, v) || r[j] in tail;
        } else {
          assert r[i] == Put(tail, k, v)[i - 1] && r[j] == Put(tail, k, v)[j - 1];
        }
      }
    }
  }

  /** The dict built by assigning the entries of `es` one after the other, starting empty. */
  function FromEntries<K(==,!new), V>(es: seq<(K, V)>): Dict<K, V>
  {
    if |es| == 0 then [] else Put(FromEntries(es[..|es| - 1]), es[|es| - 1].0, es[|es| - 1].1)
  }

  /** The value of the last entry of `es` whose key is `k`. */
  function LastValue<K(==), V>(es: seq<(K, V)>, k: K): (r: Option<V>)
    ensures r.None? <==> forall i :: 0 <= i < |es| ==> es[i].0 != k
    ensures r.Some? ==> exists i :: 0 <= i < |es| && es[i] == (k, r.value) &&
                                    forall j :: i < j < |es| ==> es[j].0 != k
  {
    if |es| == 0 then None
    else if es[|es| - 1].0 == k then Some(es[|es| - 1].1)
    else LastValue(es[..|es| - 1], k)
  }

  /** Repeated keys: the last assignment to a key decides its value. */
  lemma {:induction false} FromEntriesLastWins<K(!new), V>(es: seq<(K, V)>, k: K)
    ensures Lookup(FromEntries(es), k) == LastValue(es, k)
  {
    if |es| > 0 {
      FromEntriesLastWins(es[..|es| - 1], k);
    }
  }

  /** The built dict has no repeated keys, and each of its entries is one of the assigned entries. */
  lemma {:induction false} FromEntriesKeys<K(!new), V>(es: seq<(K, V)>)
    ensures UniqueKeys(FromEntries(es))
    ensures |FromEntries(es)| <= |es|
    ensures forall i :: 0 <= i < |FromEntries(es)| ==> FromEntries(es)[i] in es
  {
    if |es| > 0 {
      FromEntriesKeys(es[..|es| - 1]);
      PutKeepsUnique(FromEntries(es[..|es| - 1]), es[|es| - 1].0, es[|es| - 1].1);
    }
  }

  /** Without repeated keys, assigning the entries in order rebuilds exactly the same list. */
  lemma {:induction false} FromEntriesUnique<K(!new), V>(es: seq<(K, V)>)
    requires UniqueKeys(es)
    ensures FromEntries(es) == es
  {
    if |es| > 0 {
      var init := es[..|es| - 1];
      var last := es[|es| - 1];
      assert UniqueKeys(init) by {
        forall i, j | 0 <= i < j < |init| ensures init[i].0 != init[j].0 {
          assert init[i] == es[i] && init[j] == es[j];
        }
      }
      FromEntriesUnique(init);
      assert Lookup(init, last.0).None? by {
        forall i | 0 <= i < |init| ensures init[i].0 != last.0 {
          assert es[i] == init[i];
        }
      }
      assert init + [last] == es;
      FromEntriesAppend(init, last);
    }
  }

  /** Assigning one more entry with a new key appends it. */
  lemma FromEntriesAppend<K(!new), V>(init: seq<(K, V)>, last: (K, V))
    requires FromEntries(init) == init && Lookup(init, last.0).None?
    ensures FromEntries(init + [last]) == init + [last]
  {
    assert (init + [last])[..|init|] == init;
  }
}

=== FILE: fields.dfy ===
/**
  Fixed-width fields and count-prefixed lists, written and read. A reader
  either fails or returns the value it read together with the input it did
  not consume, so readers chain left to right the way successive `f.read(n)`
  calls walk through an open file.
 */
module Fields {
  import opened Bytes

  /** Why saving or loading stopped. */
  datatype Error =
    | Truncated             // `struct.unpack` given fewer bytes than its format needs
    | InvalidFormat         // the file does not start with the signature
    | InvalidOreType(tag: byte)  // `OreType(tag)` has no member with that value
    | OutOfRange            // `struct.pack` given a value its field cannot hold

  datatype Result<+T> = Success(value: T) | Failure(error: Error) {
    predicate IsFailure() {
      Failure?
    }

    function PropagateFailure<U>(): Result<U>
      requires Failure?
    {
      Failure(error)
    }

    function Extract(): T
      requires Success?
    {
      value
    }
  }

  /** A value that may be absent, such as the result of looking up a missing key. */
  datatype Option<+T> = None | Some(value: T)

  /** A value read and the input left after it. */
  datatype Parsed<+T> = Parsed(value: T, rest: seq<byte>)

  type Read<T> = Result<Parsed<T>>

  /** `struct.unpack('B', f.read(1))`. */
  function ReadByte(s: seq<byte>): (r: Read<byte>)
    ensures r.Success? <==> |s| >= 1
    ensures r.Success? ==> [r.value.value] + r.value.rest == s
    ensures r.Failure? ==> r.error == Truncated
  {
    if |s| < 1 then Failure(Truncated) else Success(Parsed(s[0], s[1..]))
  }

  /** Four bytes as an unsigned word: `struct.unpack` of a 4-byte field. */
  function ReadWord(s: seq<byte>): (r: Read<uint32>)
    ensures r.Success? <==> |s| >= 4
    ensures r.Success? ==> WordBytes(r.value.value) + r.value.rest == s
    ensures r.Failure? ==> r.error == Truncated
  {
    if |s| < 4 then Failure(Truncated)
    else
      BytesOfWord(s[..4]);
      Success(Parsed(WordOf(s[..4]), s[4..]))
  }

  /** `struct.unpack('i', f.read(4))[0]`. */
  function ReadI32(s: seq<byte>): (r: Read<int>)
    ensures r.Success? <==> |s| >= 4
    ensures r.Success? ==> IsInt32(r.value.value) && I32Bytes(r.value.value) + r.value.rest == s
    ensures r.Failure? ==> r.error == Truncated
  {
    if |s| < 4 then Failure(Truncated)
    else
      I32BytesOf(s[..4]);
      Success(Parsed(I32Of(s[..4]), s[4..]))
  }

  /** How many times `for _ in range(n)` runs: none for a count of zero or less. */
  function Iterations(n: int): nat {
    if n <= 0 then 0 else n
  }

  /**
    The loop `for _ in range(n)` around one item reader: `n` items in stream
    order. A count of zero or less reads nothing, as `range` of such a count is
    empty.
   */
  function ReadList<T>(s: seq<byte>, n: int, item: seq<byte> -> Read<T>): (r: Read<seq<T>>)
    ensures r.Success? ==> |r.value.value| == Iterations(n)
    decreases Iterations(n)
  {
    if n <= 0 then Success(Parsed([], s))
    else
      var first :- item(s);
      var others :- ReadList(first.rest, n - 1, item);
      Success(Parsed([first.value] + others.value, others.rest))
  }

  /** The bytes of all items, one after the other. */
  function Concat<T>(xs: seq<T>, enc: T -> seq<byte>): seq<byte>
  {
    if |xs| == 0 then [] else enc(xs[0]) + Concat(xs[1..], enc)
  }

  /** The sum of `f` over the items. */
  function Sum<T>(xs: seq<T>, f: T -> int): int
  {
    if |xs| == 0 then 0 else f(xs[0]) + Sum(xs[1..], f)
  }

  /** The items of `xs` seen through `f`. */
  function MapSeq<T, U>(xs: seq<T>, f: T -> U): (r: seq<U>)
    ensures |r| == |xs|
    ensures forall i :: 0 <= i < |xs| ==> r[i] == f(xs[i])
  {
    seq(|xs|, i requires 0 <= i < |xs| => f(xs[i]))
  }

  /** Whatever follows the encoding of `x`, `item` reads `y` from it and stops right after it. */
  ghost predicate ReadsAs<T, U>(item: seq<byte> -> Read<U>, enc: T -> seq<byte>, x: T, y: U) {
    forall t :: item(enc(x) + t) == Success(Parsed(y, t))
  }

  /** `item` reads `x` back from its own encoding. */
  ghost predicate Inverts<T>(item: seq<byte> -> Read<T>, enc: T -> seq<byte>, x: T) {
    ReadsAs(item, enc, x, x)
  }

  /**
    `item` finds where the encoding of `x` ends: given all of it, it stops
    right after it, and cut anywhere inside it, it reports a short read.
   */
  ghost predicate Delimited<T, U>(item: seq<byte> -> Read<U>, enc: T -> seq<byte>, x: T) {
    && (forall t :: item(enc(x) + t).Success? && item(enc(x) + t).value.rest == t)
    && (forall k :: 0 <= k < |enc(x)| ==> item(enc(x)[..k]) == Failure(Truncated))
  }

  /** A collection: its length as an `i` field, then its items. */
  function Counted<T>(xs: seq<T>, enc: T -> seq<byte>): seq<byte> {
    I32Bytes(|xs|) + Concat(xs, enc)
  }

  /** A count, then that many items. */
  function ReadCounted<T>(s: seq<byte>, item: seq<byte> -> Read<T>): (r: Read<seq<T>>)
    ensures r.Success? ==> |s| >= 4 && |r.value.value| == Iterations(I32Of(s[..4]))
  {
    var n :- ReadI32(s);
    ReadList(n.rest, n.value, item)
  }

  /** A list of one item is that item. */
  lemma ReadListOne<T>(s: seq<byte>, item: seq<byte> -> Read<T>)
    requires item(s).Success?
    ensures ReadList(s, 1, item) == Success(Parsed([item(s).value.value], item(s).value.rest))
  {
    var first := item(s).value;
    assert ReadList(first.rest, 0, item) == Success(Parsed([], first.rest));
    assert [first.value] + [] == [first.value];
  }

  /** A list read with an item reader whose values all have `p` holds only items with `p`. */
  lemma {:induction false} ReadListOnly<T>(s: seq<byte>, n: int, item: seq<byte> -> Read<T>, p: T -> bool)
    requires ReadsOnly(item, p)
    requires ReadList(s, n, item).Success?
    ensures forall i :: 0 <= i < |ReadList(s, n, item).value.value| ==> p(ReadList(s, n, item).value.value[i])
    decreases Iterations(n)
  {
    if n > 0 {
      var first := item(s).value;
      var others := ReadList(first.rest, n - 1, item).value.value;
      var xs := ReadList(s, n, item).value.value;
      assert xs == [first.value] + others;
      ReadListOnly(first.rest, n - 1, item, p);
      forall i | 0 <= i < |xs| ensures p(xs[i]) {
        if i > 0 {
          assert xs[i] == others[i - 1];
        }
      }
    }
  }

  /** Behind a count of `n`, the counted reader reads `n` items. */
  lemma ReadCountedOn<T>(s: seq<byte>, n: nat, body: seq<byte>, item: seq<byte> -> Read<T>)
    requires n <= MAX_INT32 && s == I32Bytes(n) + body
    ensures ReadCounted(s, item) == ReadList(body, n, item)
  {
    ReadI32Bytes(n, body);
  }

  /** A signed field reads back the value packed into it. */
  lemma ReadI32Bytes(v: int, t: seq<byte>)
    requires IsInt32(v)
    ensures ReadI32(I32Bytes(v) + t) == Success(Parsed(v, t))
  {
    assert (I32Bytes(v) + t)[..4] == I32Bytes(v);
    assert (I32Bytes(v) + t)[4..] == t;
    I32RoundTrip(v);
  }

  /** A word reads back from its four bytes. */
  lemma ReadWordBytes(w: uint32, t: seq<byte>)
    ensures ReadWord(WordBytes(w) + t) == Success(Parsed(w, t))
  {
    assert (WordBytes(w) + t)[..4] == WordBytes(w);
    assert (WordBytes(w) + t)[4..] == t;
    WordOfBytes(w);
  }

  /** `item` succeeds exactly when `width` bytes are there, and then reads exactly those. */
  ghost predicate FixedWidth<T>(item: seq<byte> -> Read<T>, width: nat) {
    forall s {:trigger item(s)} :: (item(s).Success? <==> |s| >= width) && (item(s).Success? ==> item(s).value.rest == s[width..])
  }

  /** Every value `item` reads has the property `p`. */
  ghost predicate ReadsOnly<T>(item: seq<byte> -> Read<T>, p: T -> bool) {
    forall s {:trigger item(s)} :: item(s).Success? ==> p(item(s).value.value)
  }

  /** A reader whose only failure is a short read. */
  ghost predicate OnlyTruncates<T>(item: seq<byte> -> Read<T>) {
    forall s :: item(s).Failure? ==> item(s).error == Truncated
  }

  /** A list of items that only fail on a short read only fails on a short read. */
  lemma {:induction false} ReadListTruncates<T>(s: seq<byte>, n: int, item: seq<byte> -> Read<T>)
    requires OnlyTruncates(item)
    ensures ReadList(s, n, item).Failure? ==> ReadList(s, n, item).error == Truncated
    decreases Iterations(n)
  {
    if n > 0 && item(s).Success? {
      ReadListTruncates(item(s).value.rest, n - 1, item);
    }
  }

  /** `n` items of `width` bytes each make a list reader of `n * width` bytes. */
  lemma ReadListFixedWidth<T>(n: nat, item: seq<byte> -> Read<T>, width: nat)
    requires FixedWidth(item, width) && OnlyTruncates(item)
    ensures FixedWidth(s => ReadList(s, n, item), n * width)
    ensures OnlyTruncates(s => ReadList(s, n, item))
  {
    forall s ensures && (ReadList(s, n, item).Success? <==> |s| >= n * width)
                     && (ReadList(s, n, item).Success? ==> ReadList(s, n, item).value.rest == s[n * width..])
                     && (ReadList(s, n, item).Failure? ==> ReadList(s, n, item).error == Truncated)
    {
      if |s| >= n * width {
        ReadListFixed(s, n, item, width);
      }
      if ReadList(s, n, item).Success? {
        ReadListFixedLength(s, n, item, width);
      }
      ReadListTruncates(s, n, item);
    }
  }

  /** An item of a fixed width is delimited by its reader. */
  lemma FixedDelimited<T, U>(item: seq<byte> -> Read<U>, enc: T -> seq<byte>, x: T, width: nat)
    requires FixedWidth(item, width) && OnlyTruncates(item) && |enc(x)| == width
    ensures Delimited(item, enc, x)
  {
    forall t ensures item(enc(x) + t).Success? && item(enc(x) + t).value.rest == t {
      assert (enc(x) + t)[width..] == t;
    }
    forall k | 0 <= k < |enc(x)| ensures item(enc(x)[..k]) == Failure(Truncated) {
      assert |enc(x)[..k]| == k;
    }
  }

  /** A word is four bytes wide. */
  lemma WordFixedWidth()
    ensures FixedWidth(ReadWord, 4) && OnlyTruncates(ReadWord)
  {
  }

  /** Where a cut falls inside `a + b`. */
  lemma CutConcat(a: seq<byte>, b: seq<byte>, k: nat)
    requires k <= |a| + |b|
    ensures k <= |a| ==> (a + b)[..k] == a[..k]
    ensures k >= |a| ==> (a + b)[..k] == a + b[..k - |a|]
  {
  }

  /** The list reader inverts the concatenated encoding of items it inverts one by one. */
  lemma {:induction false} ReadListConcat<T>(xs: seq<T>, enc: T -> seq<byte>, item: seq<byte> -> Read<T>, t: seq<byte>)
    requires forall i :: 0 <= i < |xs| ==> Inverts(item, enc, xs[i])
    ensures ReadList(Concat(xs, enc) + t, |xs|, item) == Success(Parsed(xs, t))
  {
    if |xs| > 0 {
      var tail := Concat(xs[1..], enc);
      assert Inverts(item, enc, xs[0]);
      assert Concat(xs, enc) + t == enc(xs[0]) + (tail + t);
      var first := item(enc(xs[0]) + (tail + t));
      assert first == Success(Parsed(xs[0], tail + t));
      assert forall i :: 0 <= i < |xs[1..]| ==> xs[1..][i] == xs[i + 1];
      ReadListConcat(xs[1..], enc, item, t);
      var others := ReadList(tail + t, |xs| - 1, item);
      assert others == Success(Parsed(xs[1..], t));
      assert [xs[0]] + xs[1..] == xs;
      assert ReadList(enc(xs[0]) + (tail + t), |xs|, item) == Success(Parsed([xs[0]] + xs[1..], t));
    } else {
      assert Concat(xs, enc) + t == t;
    }
  }

  /** The list reader reads `MapSeq(xs, view)` from the concatenated encoding of `xs`. */
  lemma {:induction false} ReadListConcatView<T, U>(xs: seq<T>, enc: T -> seq<byte>, view: T -> U,
                                                    item: seq<byte> -> Read<U>, t: seq<byte>)
    requires forall i :: 0 <= i < |xs| ==> ReadsAs(item, enc, xs[i], view(xs[i]))
    ensures ReadList(Concat(xs, enc) + t, |xs|, item) == Success(Parsed(MapSeq(xs, view), t))
  {
    if |xs| > 0 {
      var tail := Concat(xs[1..], enc);
      assert ReadsAs(item, enc, xs[0], view(xs[0]));
      assert Concat(xs, enc) + t == enc(xs[0]) + (tail + t);
      assert item(enc(xs[0]) + (tail + t)) == Success(Parsed(view(xs[0]), tail + t));
      assert forall i :: 0 <= i < |xs[1..]| ==> xs[1..][i] == xs[i + 1];
      ReadListConcatView(xs[1..], enc, view, item, t);
      assert [view(xs[0])] + MapSeq(xs[1..], view) == MapSeq(xs, view);
    } else {
      assert Concat(xs, enc) + t == t;
    }
  }

  /** Cut anywhere inside the concatenated encoding of delimited items, the list reader reports a short read. */
  lemma {:induction false} ReadListCut<T, U>(xs: seq<T>, enc: T -> seq<byte>, item: seq<byte> -> Read<U>, k: nat)
    requires forall i :: 0 <= i < |xs| ==> Delimited(item, enc, xs[i])
    requires k < |Concat(xs, enc)|
    ensures ReadList(Concat(xs, enc)[..k], |xs|, item) == Failure(Truncated)
  {
    var head := enc(xs[0]);
    var tail := Concat(xs[1..], enc);
    CutConcat(head, tail, k);
    assert Delimited(item, enc, xs[0]);
    if k >= |head| {
      var first := item(head + tail[..k - |head|]);
      assert first.Success? && first.value.rest == tail[..k - |head|];
      assert forall i :: 0 <= i < |xs[1..]| ==> xs[1..][i] == xs[i + 1];
      ReadListCut(xs[1..], enc, item, k - |head|);
    }
  }

  /** The length of a concatenation is the sum of the lengths of its parts. */
  lemma {:induction false} ConcatLength<T>(xs: seq<T>, enc: T -> seq<byte>, size: T -> int)
    requires forall i :: 0 <= i < |xs| ==> |enc(xs[i])| == size(xs[i])
    ensures |Concat(xs, enc)| == Sum(xs, size)
  {
    if |xs| > 0 {
      ConcatLength(xs[1..], enc, size);
    }
  }

  /** Items of one fixed size `width` concatenate to `width` bytes per item. */
  lemma {:induction false} ConcatUniformLength<T>(xs: seq<T>, enc: T -> seq<byte>, width: nat)
    requires forall i :: 0 <= i < |xs| ==> |enc(xs[i])| == width
    ensures |Concat(xs, enc)| == |xs| * width
  {
    if |xs| > 0 {
      ConcatUniformLength(xs[1..], enc, width);
    }
  }

  lemma MulStep(n: nat, width: nat)
    requires n > 0
    ensures n * width == width + (n - 1) * width
  {
  }

  lemma DropDrop(s: seq<byte>, a: nat, b: nat)
    requires a + b <= |s|
    ensures s[a..][b..] == s[a + b..]
  {
  }

  /** `n` fixed-width items occupy exactly `n * width` bytes and are read wherever those bytes are present. */
  lemma {:induction false} ReadListFixed<T>(s: seq<byte>, n: nat, item: seq<byte> -> Read<T>, width: nat)
    requires FixedWidth(item, width)
    requires |s| >= n * width
    ensures ReadList(s, n, item).Success?
    ensures ReadList(s, n, item).value.rest == s[n * width..]
  {
    if n > 0 {
      var m := (n - 1) * width;
      MulStep(n, width);
      assert |s| >= width;
      var rest := item(s).value.rest;
      assert rest == s[width..];
      ReadListFixed(rest, n - 1, item, width);
      assert rest[m..] == s[width + m..];
    }
  }

  /**
    `n` fixed-width items read from `slack` bytes more than they need, then
    `t`, leave those `slack` bytes unread in front of `t`.
   */
  lemma ReadListSlack<T>(written: seq<byte>, t: seq<byte>, n: nat, item: seq<byte> -> Read<T>, width: nat, slack: nat)
    requires FixedWidth(item, width)
    requires |written| == n * width + slack
    ensures ReadList(written + t, n, item).Success?
    ensures |ReadList(written + t, n, item).value.rest| == slack + |t|
    ensures ReadList(written + t, n, item).value.rest[slack..] == t
  {
    ReadListFixed(written + t, n, item, width);
    assert (written + t)[n * width..][slack..] == t;
  }

  /** A successful list of fixed-width items consumed `n * width` bytes. */
  lemma {:induction false} ReadListFixedLength<T>(s: seq<byte>, n: nat, item: seq<byte> -> Read<T>, width: nat)
    requires FixedWidth(item, width)
    requires ReadList(s, n, item).Success?
    ensures |s| >= n * width && ReadList(s, n, item).value.rest == s[n * width..]
  {
    if n > 0 {
      var m := (n - 1) * width;
      MulStep(n, width);
      var first := item(s);
      assert first.Success?;
      var rest := first.value.rest;
      assert |s| >= width && rest == s[width..];
      ReadListFixedLength(rest, n - 1, item, width);
      DropDrop(s, width, m);
    }
  }

  /** Item `j` of a list of fixed-width items is the item read at byte `at == j * width`. */
  lemma {:induction false} ReadListFixedAt<T>(s: seq<byte>, n: nat, item: seq<byte> -> Read<T>, width: nat, j: nat, at: nat)
    requires FixedWidth(item, width)
    requires ReadList(s, n, item).Success?
    requires j < n && at == j * width
    ensures at + width <= |s|
    ensures ReadList(s, n, item).value.value[j] == item(s[at..]).value.value
  {
    var first := item(s);
    assert first.Success?;
    var rest := first.value.rest;
    assert rest == s[width..];
    var others := ReadList(rest, n - 1, item);
    assert ReadList(s, n, item).value.value == [first.value.value] + others.value.value;
    if j > 0 {
      MulStep(j, width);
      ReadListFixedAt(rest, n - 1, item, width, j - 1, at - width);
      assert rest[at - width..] == s[at..];
    }
  }

  // ---- count-prefixed collections ----

  /** A counted collection reads back as its items seen through `view`. */
  lemma CountedReadsAs<T, U>(xs: seq<T>, enc: T -> seq<byte>, view: T -> U, item: seq<byte> -> Read<U>, t: seq<byte>)
    requires |xs| <= MAX_INT32
    requires forall i :: 0 <= i < |xs| ==> ReadsAs(item, enc, xs[i], view(xs[i]))
    ensures ReadCounted(Counted(xs, enc) + t, item) == Success(Parsed(MapSeq(xs, view), t))
  {
    assert Counted(xs, enc) + t == I32Bytes(|xs|) + (Concat(xs, enc) + t);
    ReadI32Bytes(|xs|, Concat(xs, enc) + t);
    ReadListConcatView(xs, enc, view, item, t);
  }

  /** A counted collection of items the reader inverts reads back unchanged. */
  lemma CountedInverts<T>(xs: seq<T>, enc: T -> seq<byte>, item: seq<byte> -> Read<T>, t: seq<byte>)
    requires |xs| <= MAX_INT32
    requires forall i :: 0 <= i < |xs| ==> Inverts(item, enc, xs[i])
    ensures ReadCounted(Counted(xs, enc) + t, item) == Success(Parsed(xs, t))
  {
    assert Counted(xs, enc) + t == I32Bytes(|xs|) + (Concat(xs, enc) + t);
    ReadI32Bytes(|xs|, Concat(xs, enc) + t);
    ReadListConcat(xs, enc, item, t);
  }

  /** Cut anywhere inside a counted collection of delimited items, the reader reports a short read. */
  lemma CountedCut<T, U>(xs: seq<T>, enc: T -> seq<byte>, item: seq<byte> -> Read<U>, k: nat)
    requires |xs| <= MAX_INT32
    requires forall i :: 0 <= i < |xs| ==> Delimited(item, enc, xs[i])
    requires k < |Counted(xs, enc)|
    ensures ReadCounted(Counted(xs, enc)[..k], item) == Failure(Truncated)
  {
    CutConcat(I32Bytes(|xs|), Concat(xs, enc), k);
    if k >= 4 {
      ReadI32Bytes(|xs|, Concat(xs, enc)[..k - 4]);
      ReadListCut(xs, enc, item, k - 4);
    }
  }

  // ---- failures ----

  /** Whatever follows the encoding of `x`, `item` fails with an error satisfying `P`. */
  ghost predicate FailsWith<T, U>(item: seq<byte> -> Read<U>, enc: T -> seq<byte>, x: T, P: Error -> bool) {
    forall t :: item(enc(x) + t).Failure? && P(item(enc(x) + t).error)
  }

  /**
    A list whose items are each either delimited or failing with `P`, and at
    least one failing, fails with `P`: reading stops at the first failing item.
   */
  lemma {:induction false} ReadListFailsWith<T, U>(xs: seq<T>, enc: T -> seq<byte>, item: seq<byte> -> Read<U>,
                                                   P: Error -> bool, t: seq<byte>)
    requires forall i :: 0 <= i < |xs| ==> Delimited(item, enc, xs[i]) || FailsWith(item, enc, xs[i], P)
    requires exists i :: 0 <= i < |xs| && FailsWith(item, enc, xs[i], P)
    ensures ReadList(Concat(xs, enc) + t, |xs|, item).Failure?
    ensures P(ReadList(Concat(xs, enc) + t, |xs|, item).error)
  {
    var tail := Concat(xs[1..], enc);
    assert Concat(xs, enc) + t == enc(xs[0]) + (tail + t);
    if !FailsWith(item, enc, xs[0], P) {
      assert Delimited(item, enc, xs[0]);
      var first := item(enc(xs[0]) + (tail + t));
      assert first.Success? && first.value.rest == tail + t;
      var i :| 0 <= i < |xs| && FailsWith(item, enc, xs[i], P);
      assert i > 0;
      assert xs[1..][i - 1] == xs[i];
      assert forall j :: 0 <= j < |xs[1..]| ==> xs[1..][j] == xs[j + 1];
      ReadListFailsWith(xs[1..], enc, item, P, t);
    }
  }

  /** A counted collection with a failing item fails the same way. */
  lemma CountedFailsWith<T, U>(xs: seq<T>, enc: T -> seq<byte>, item: seq<byte> -> Read<U>, P: Error -> bool, t: seq<byte>)
    requires |xs| <= MAX_INT32
    requires forall i :: 0 <= i < |xs| ==> Delimited(item, enc, xs[i]) || FailsWith(item, enc, xs[i], P)
    requires exists i :: 0 <= i < |xs| && FailsWith(item, enc, xs[i], P)
    ensures ReadCounted(Counted(xs, enc) + t, item).Failure?
    ensures P(ReadCounted(Counted(xs, enc) + t, item).error)
  {
    assert Counted(xs, enc) + t == I32Bytes(|xs|) + (Concat(xs, enc) + t);
    ReadI32Bytes(|xs|, Concat(xs, enc) + t);
    ReadListFailsWith(xs, enc, item, P, t);
  }
}

=== FILE: mapfile.dfy ===
/**
  Whole map files: what `save_map` writes for a generated world, and what
  `load_map` makes of it, as written and corrected.
 */
module MapFile {
  import opened Bytes
  import opened Dict
  import opened Fields
  import opened Model
  import opened Saver
  import opened RoundTrip
  import opened ObjectCodec
  import opened NoiseCodec

  lemma EncodeSplit(w: World<NoiseChunk>, chunkSize: int, t: seq<byte>)
    ensures Encode(w, chunkSize) + t == ObjectBytes(w) + (NoiseBytes(chunkSize, w.chunks) + t)
  {
  }

  /** The noise chunks of a generated world fit the section they are written to. */
  lemma GeneratedChunksFit(w: World<NoiseChunk>, chunkSize: int, oreTypes: set<int>)
    requires Generated(w, chunkSize, oreTypes)
    ensures ChunksFit(chunkSize, w.chunks)
  {
  }

  /** `load_map` in one step, once the objects and the noise are known to read. */
  lemma LoadOn(s: seq<byte>, oreTypes: set<int>, fixed: bool, objects: World<Grid>, n: seq<byte>,
               chunks: Dict<Point, Grid>, t: seq<byte>)
    requires LoadObjects(s, oreTypes) == Success(Parsed(objects, n))
    requires ReadNoise(n, fixed) == Success(Parsed(chunks, t))
    ensures (if fixed then LoadFixed(s, oreTypes) else Load(s, oreTypes)) ==
            Success(Parsed(objects.(chunks := chunks), t))
  {
  }

  /** Without repeated chunk positions, assigning the grids in order gives the reloaded chunks. */
  lemma ReloadedChunks(w: World<NoiseChunk>)
    requires UniqueKeys(w.chunks)
    ensures FromEntries(MapSeq(w.chunks, GridEntry)) == Reloaded(w).chunks
  {
    var grids := MapSeq(w.chunks, GridEntry);
    assert grids == Reloaded(w).chunks;
    assert UniqueKeys(grids) by {
      forall i, j | 0 <= i < j < |grids| ensures grids[i].0 != grids[j].0 {
        assert grids[i].0 == w.chunks[i].0 && grids[j].0 == w.chunks[j].0;
      }
    }
    FromEntriesUnique(grids);
  }

  // ---- the corrected loader ----

  /**
    Read in step with the writer, the file of a generated world loads back as
    that world, each noise chunk reduced to its grid, whatever follows it.
   */
  lemma LoadFixedRoundTrip(w: World<NoiseChunk>, chunkSize: int, oreTypes: set<int>, t: seq<byte>)
    requires Generated(w, chunkSize, oreTypes)
    ensures LoadFixed(Encode(w, chunkSize) + t, oreTypes) == Success(Parsed(Reloaded(w), t))
  {
    var n := NoiseBytes(chunkSize, w.chunks) + t;
    EncodeSplit(w, chunkSize, t);
    LoadObjectsReads(w, oreTypes, n);
    GeneratedChunksFit(w, chunkSize, oreTypes);
    NoiseReadsFixed(chunkSize, w.chunks, t);
    ReloadedChunks(w);
    LoadOn(Encode(w, chunkSize) + t, oreTypes, true, Objects(w), n, Reloaded(w).chunks, t);
  }

  /** Saving a generated world succeeds, and loading the file in step with the writer gives it back. */
  lemma SaveThenLoad(w: World<NoiseChunk>, chunkSize: int, oreTypes: set<int>)
    requires Generated(w, chunkSize, oreTypes)
    ensures Save(w, chunkSize).Success?
    ensures LoadFixed(Save(w, chunkSize).value, oreTypes) == Success(Parsed(Reloaded(w), []))
  {
    LoadFixedRoundTrip(w, chunkSize, oreTypes, []);
    assert Encode(w, chunkSize) + [] == Encode(w, chunkSize);
  }

  /** A cut inside the object sections fails there; a cut in the noise section fails there. */
  lemma LoadFixedCutOn(s: seq<byte>, oreTypes: set<int>, objects: World<Grid>, n: seq<byte>)
    requires LoadObjects(s, oreTypes) == Failure(Truncated) ||
             (LoadObjects(s, oreTypes) == Success(Parsed(objects, n)) && ReadNoise(n, true) == Failure(Truncated))
    ensures LoadFixed(s, oreTypes) == Failure(Truncated)
  {
  }

  /** A cut inside the objects fails there. */
  lemma CutInObjectPart(w: World<NoiseChunk>, chunkSize: int, oreTypes: set<int>, k: nat)
    requires ObjectsPackable(w) && ObjectsValid(w, oreTypes)
    requires k < |ObjectBytes(w)|
    ensures LoadFixed(Encode(w, chunkSize)[..k], oreTypes) == Failure(Truncated)
  {
    var s := Encode(w, chunkSize)[..k];
    assert s == ObjectBytes(w)[..k] by {
      CutConcat(ObjectBytes(w), NoiseBytes(chunkSize, w.chunks), k);
    }
    LoadObjectsCut(w, oreTypes, k);
    LoadFixedCutOn(s, oreTypes, Objects(w), []);
  }

  /** A cut inside the noise section fails there. */
  lemma CutInNoisePart(w: World<NoiseChunk>, chunkSize: int, oreTypes: set<int>, k: nat)
    requires Generated(w, chunkSize, oreTypes)
    requires |ObjectBytes(w)| <= k < |Encode(w, chunkSize)|
    ensures LoadFixed(Encode(w, chunkSize)[..k], oreTypes) == Failure(Truncated)
  {
    var objects := ObjectBytes(w);
    var noise := NoiseBytes(chunkSize, w.chunks);
    var s := Encode(w, chunkSize)[..k];
    var u := noise[..k - |objects|];
    assert s == objects + u by {
      CutConcat(objects, noise, k);
    }
    LoadObjectsReads(w, oreTypes, u);
    assert ReadNoise(u, true) == Failure(Truncated) by {
      GeneratedChunksFit(w, chunkSize, oreTypes);
      NoiseCutFixed(chunkSize, w.chunks, k - |objects|);
    }
    LoadFixedCutOn(s, oreTypes, Objects(w), u);
  }

  /** The file of a generated world cut anywhere does not load: the reader runs out of bytes. */
  lemma LoadFixedCut(w: World<NoiseChunk>, chunkSize: int, oreTypes: set<int>, k: nat)
    requires Generated(w, chunkSize, oreTypes)
    requires k < |Encode(w, chunkSize)|
    ensures LoadFixed(Encode(w, chunkSize)[..k], oreTypes) == Failure(Truncated)
  {
    if k < |ObjectBytes(w)| {
      CutInObjectPart(w, chunkSize, oreTypes, k);
    } else {
      CutInNoisePart(w, chunkSize, oreTypes, k);
    }
  }

  // ---- failures shared by both loaders ----

  /** A file whose ores include a kind that is not an `OreType` member fails with an error naming a tag outside `OreType`. */
  lemma LoadRejectsUnknownKind(w: World<NoiseChunk>, chunkSize: int, oreTypes: set<int>, t: seq<byte>)
    requires Packable(w, chunkSize) && HasUnknownKind(w, oreTypes)
    ensures Load(Encode(w, chunkSize) + t, oreTypes).Failure?
    ensures UnknownTag(oreTypes)(Load(Encode(w, chunkSize) + t, oreTypes).error)
    ensures LoadFixed(Encode(w, chunkSize) + t, oreTypes).Failure?
    ensures UnknownTag(oreTypes)(LoadFixed(Encode(w, chunkSize) + t, oreTypes).error)
  {
    EncodeSplit(w, chunkSize, t);
    LoadObjectsRejects(w, oreTypes, NoiseBytes(chunkSize, w.chunks) + t);
  }

  // ---- the loader as written ----

  /**
    As written, the file of a generated world loads without error and gives
    back its seed, ores, structures and buildings, but the noise section is
    read four bytes short per chunk: those bytes are left unread in front of
    whatever follows the file. Each grid still has the saved chunk size as
    its side, since that size is read once and bounds both grid loops.
   */
  lemma LoadAsWritten(w: World<NoiseChunk>, chunkSize: int, oreTypes: set<int>, t: seq<byte>)
    requires Generated(w, chunkSize, oreTypes)
    ensures Load(Encode(w, chunkSize) + t, oreTypes).Success?
    ensures Load(Encode(w, chunkSize) + t, oreTypes).value.value.(chunks := []) == Objects(w)
    ensures |Load(Encode(w, chunkSize) + t, oreTypes).value.value.chunks| <= |w.chunks|
    ensures |Load(Encode(w, chunkSize) + t, oreTypes).value.rest| == 4 * |w.chunks| + |t|
    ensures Load(Encode(w, chunkSize) + t, oreTypes).value.rest[4 * |w.chunks|..] == t
    ensures forall i :: 0 <= i < |Load(Encode(w, chunkSize) + t, oreTypes).value.value.chunks| ==>
              IsSquare(Load(Encode(w, chunkSize) + t, oreTypes).value.value.chunks[i].1, chunkSize)
  {
    LoadNoiseAsWritten(w, chunkSize, oreTypes, t);
    GeneratedChunksFit(w, chunkSize, oreTypes);
    NoiseAsWritten(chunkSize, w.chunks, t);
    LoadAsWrittenSquare(w, chunkSize, oreTypes, t);
  }

  /** As written, every grid loaded from the file of a generated world still has the chunk size it was saved with. */
  lemma LoadAsWrittenSquare(w: World<NoiseChunk>, chunkSize: int, oreTypes: set<int>, t: seq<byte>)
    requires Generated(w, chunkSize, oreTypes)
    ensures Load(Encode(w, chunkSize) + t, oreTypes).Success?
    ensures forall i :: 0 <= i < |Load(Encode(w, chunkSize) + t, oreTypes).value.value.chunks| ==>
              IsSquare(Load(Encode(w, chunkSize) + t, oreTypes).value.value.chunks[i].1, chunkSize)
  {
    var n := NoiseBytes(chunkSize, w.chunks) + t;
    LoadNoiseAsWritten(w, chunkSize, oreTypes, t);
    assert ChunksFit(chunkSize, w.chunks) by {
      GeneratedChunksFit(w, chunkSize, oreTypes);
    }
    NoiseSquareAsWritten(chunkSize, w.chunks, t);
  }

  /** As written, the file of a generated world loads as its objects with the noise section read on its own. */
  lemma LoadNoiseAsWritten(w: World<NoiseChunk>, chunkSize: int, oreTypes: set<int>, t: seq<byte>)
    requires Generated(w, chunkSize, oreTypes)
    ensures ReadNoise(NoiseBytes(chunkSize, w.chunks) + t, false).Success?
    ensures Load(Encode(w, chunkSize) + t, oreTypes) ==
            Success(Parsed(Objects(w).(chunks := ReadNoise(NoiseBytes(chunkSize, w.chunks) + t, false).value.value),
                           ReadNoise(NoiseBytes(chunkSize, w.chunks) + t, false).value.rest))
  {
    var n := NoiseBytes(chunkSize, w.chunks) + t;
    EncodeSplit(w, chunkSize, t);
    LoadObjectsReads(w, oreTypes, n);
    GeneratedChunksFit(w, chunkSize, oreTypes);
    NoiseAsWritten(chunkSize, w.chunks, t);
    var noise := ReadNoise(n, false).value;
    LoadOn(Encode(w, chunkSize) + t, oreTypes, false, Objects(w), n, noise.value, noise.rest);
  }

  /** A world with a single noise chunk at `(0, 0)` of chunk size 1 whose only sample is the word 5. */
  function SampleWorld(): World<NoiseChunk> {
    World(0, [], [], [], [(Point(0, 0), NoiseChunk([[5]], 0))])
  }

  lemma SampleGenerated(oreTypes: set<int>)
    ensures Generated(SampleWorld(), 1, oreTypes)
  {
  }

  /**
    The sample's noise section up to its last sample: chunk size 1, one
    chunk, the position `(0, 0)`, and `len(chunk)`, which is 1.
   */
  function SampleHead(): seq<byte> {
    I32Bytes(1) + (I32Bytes(1) + (I32Bytes(0) + (I32Bytes(0) + I32Bytes(1))))
  }

  /** The sample's noise section is its head, then the bytes of its one sample. */
  lemma SampleNoiseBytes()
    ensures NoiseBytes(1, SampleWorld().chunks) == SampleHead() + WordBytes(5)
  {
    var e := SampleWorld().chunks[0];
    assert RowBytes([5]) == WordBytes(5) + [];
    assert Concat([[5]], RowBytes) == RowBytes([5]) + [];
    assert NoiseChunkBytes(e) == I32Bytes(0) + I32Bytes(0) + I32Bytes(1) + WordBytes(5);
    assert Concat(SampleWorld().chunks, NoiseChunkBytes) == NoiseChunkBytes(e) + [];
  }

  /** The grid `[[1]]` at `(0, 0)`: what the loader as written makes of the sample chunk. */
  function MisreadWorld(): World<Grid> {
    World(0, [], [], [], [(Point(0, 0), [[1]])])
  }

  /** The sample's noise head as the loader as written reads it: the stored length becomes the sample. */
  lemma MisreadNoise(rest: seq<byte>)
    ensures ReadNoise(SampleHead() + rest, false) == Success(Parsed([(Point(0, 0), [[1]])], rest))
  {
    var g := I32Bytes(1) + rest;
    var c := I32Bytes(0) + (I32Bytes(0) + g);
    var b := I32Bytes(1) + c;
    var s := I32Bytes(1) + b;
    assert SampleHead() + rest == s;
    ReadI32Bytes(1, b);
    ReadCountedOn(b, 1, c, NoiseChunkReader(1, false));
    ReadI32Bytes(0, I32Bytes(0) + g);
    ReadI32Bytes(0, g);
    assert ReadPoint(c) == Success(Parsed(Point(0, 0), g));
    assert I32Bytes(1) == WordBytes(1);
    ReadWordBytes(1, rest);
    ReadListOne(g, ReadWord);
    assert RowReader(1)(g) == ReadList(g, 1, ReadWord);
    ReadListOne(g, RowReader(1));
    assert ReadNoiseChunk(c, 1) == Success(Parsed((Point(0, 0), [[1]]), rest));
    ReadListOne(c, NoiseChunkReader(1, false));
    ReadNoiseOn(s, false, 1, b, [(Point(0, 0), [[1]])], rest);
  }

  /**
    As written, the sample file loads without error, but its grid holds the
    stored length of the chunk, 1, instead of the sample 5, whose bytes are
    left unread; the corrected loader gives back the sample.
   */
  lemma NoiseMisread(oreTypes: set<int>)
    ensures Load(Encode(SampleWorld(), 1), oreTypes) == Success(Parsed(MisreadWorld(), WordBytes(5)))
    ensures Reloaded(SampleWorld()).chunks == [(Point(0, 0), [[5]])]
    ensures LoadFixed(Encode(SampleWorld(), 1), oreTypes) == Success(Parsed(Reloaded(SampleWorld()), []))
  {
    var w := SampleWorld();
    var noise := NoiseBytes(1, w.chunks);
    SampleGenerated(oreTypes);
    LoadObjectsReads(w, oreTypes, noise);
    SampleNoiseBytes();
    MisreadNoise(WordBytes(5));
    LoadOn(Encode(w, 1), oreTypes, false, Objects(w), noise, [(Point(0, 0), [[1]])], WordBytes(5));
    LoadFixedRoundTrip(w, 1, oreTypes, []);
    assert Encode(w, 1) + [] == Encode(w, 1);
  }

  /**
    As written, the sample file with the bytes of its last sample cut off
    still loads without error, while the corrected loader reports the short
    read.
   */
  lemma TruncatedStillLoads(oreTypes: set<int>)
    ensures |Encode(SampleWorld(), 1)| >= 4
    ensures Load(Encode(SampleWorld(), 1)[..|Encode(SampleWorld(), 1)| - 4], oreTypes) == Success(Parsed(MisreadWorld(), []))
    ensures LoadFixed(Encode(SampleWorld(), 1)[..|Encode(SampleWorld(), 1)| - 4], oreTypes) == Failure(Truncated)
  {
    var w := SampleWorld();
    var s := Encode(w, 1);
    var head := ObjectBytes(w) + SampleHead();
    SampleNoiseBytes();
    assert s == head + WordBytes(5);
    var u := s[..|s| - 4];
    assert u == head;
    SampleGenerated(oreTypes);
    LoadObjectsReads(w, oreTypes, SampleHead());
    MisreadNoise([]);
    assert SampleHead() + [] == SampleHead();
    LoadOn(u, oreTypes, false, Objects(w), SampleHead(), [(Point(0, 0), [[1]])], []);
    LoadFixedCut(w, 1, oreTypes, |s| - 4);
  }
}

=== FILE: model.dfy ===
/**
  The game world as the saver sees it. The classes behind it (`Map`,
  `Perlin`, `Structure`, `Building`, `OreType`, `Point`) live in files that are
  not part of this model; only the fields the saver touches are kept.
 */
module Model {
  import opened Bytes
  import opened Dict

  /** `Point(x, y)`: a world position, also used as the key of a chunk. */
  datatype Point = Point(x: int, y: int)

  /** An ore kind, named by the value of its `OreType` member. */
  type OreKind = int

  /** `Structure(structure_type, position, points)`: the points are its footprint, in order. */
  datatype Structure = Structure(kind: int, position: Point, points: seq<Point>)

  /** `Building(position, points)`. */
  datatype Building = Building(position: Point, points: seq<Point>)

  /** Rows of noise samples; a sample is kept as the 32-bit pattern it is stored as. */
  type Grid = seq<seq<uint32>>

  /**
    A chunk as the noise generator holds it: a sequence whose first entry is
    the sample grid, followed by `others` further entries the saver never
    looks at, so that `len(chunk) == 1 + others`.
   */
  datatype NoiseChunk = NoiseChunk(grid: Grid, others: nat)

  /**
    A world: the seed of its noise, ores per chunk and per kind, structures per
    chunk, the buildings, and the noise chunks by chunk position. `C` is what a
    noise chunk holds: a `NoiseChunk` in a generated world, a bare `Grid` in
    a loaded one.
   */
  datatype World<C> = World(
    seed: int,
    ores: Dict<Point, Dict<OreKind, seq<Point>>>,
    structures: Dict<Point, seq<Structure>>,
    buildings: seq<Building>,
    chunks: Dict<Point, C>)

  /**
    `Map(seed)`, assumed to be a world with that seed and nothing in it yet;
    its constructor is not part of this model.
   */
  function NewMap(seed: int): (w: World<Grid>)
    ensures w.seed == seed
    ensures |w.ores| == |w.structures| == |w.buildings| == |w.chunks| == 0
  {
    World(seed, [], [], [], [])
  }

  // ---- what `struct.pack` accepts ----

  /** A count that fits the `i` field it is written to. */
  predicate CountFits(n: nat) {
    n <= MAX_INT32
  }

  predicate PointPackable(p: Point) {
    IsInt32(p.x) && IsInt32(p.y)
  }

  predicate PointsPackable(ps: seq<Point>) {
    CountFits(|ps|) && forall i :: 0 <= i < |ps| ==> PointPackable(ps[i])
  }

  predicate OreKindPackable(e: (OreKind, seq<Point>)) {
    0 <= e.0 < 0x100 && PointsPackable(e.1)
  }

  predicate OreChunkPackable(e: (Point, Dict<OreKind, seq<Point>>)) {
    PointPackable(e.0) && CountFits(|e.1|) && forall i :: 0 <= i < |e.1| ==> OreKindPackable(e.1[i])
  }

  predicate StructurePackable(s: Structure) {
    IsInt32(s.kind) && PointPackable(s.position) && PointsPackable(s.points)
  }

  predicate StructureChunkPackable(e: (Point, seq<Structure>)) {
    PointPackable(e.0) && CountFits(|e.1|) && forall i :: 0 <= i < |e.1| ==> StructurePackable(e.1[i])
  }

  predicate BuildingPackable(b: Building) {
    PointPackable(b.position) && PointsPackable(b.points)
  }

  predicate NoiseChunkPackable(e: (Point, NoiseChunk)) {
    PointPackable(e.0) && IsInt32(1 + e.1.others)
  }

  /** Every integer of the seed, ore, structure and building parts fits the field it is packed into. */
  predicate ObjectsPackable<C>(w: World<C>) {
    && IsInt32(w.seed)
    && CountFits(|w.ores|) && (forall i :: 0 <= i < |w.ores| ==> OreChunkPackable(w.ores[i]))
    && CountFits(|w.structures|) && (forall i :: 0 <= i < |w.structures| ==> StructureChunkPackable(w.structures[i]))
    && CountFits(|w.buildings|) && (forall i :: 0 <= i < |w.buildings| ==> BuildingPackable(w.buildings[i]))
  }

  /**
    Every integer the saver packs fits its field: coordinates, seed, structure
    types, counts and the chunk size in `i` fields, ore kinds in the `B` field.
   */
  predicate Packable(w: World<NoiseChunk>, chunkSize: int) {
    && ObjectsPackable(w)
    && IsInt32(chunkSize)
    && CountFits(|w.chunks|) && (forall i :: 0 <= i < |w.chunks| ==> NoiseChunkPackable(w.chunks[i]))
  }

  // ---- what a generated world looks like ----

  /** `size` rows of `size` samples each. */
  predicate IsSquare(g: Grid, size: int) {
    |g| == size && forall i :: 0 <= i < |g| ==> |g[i]| == size
  }

  /** Every ore kind of `kinds` is a member of `OreType`. */
  ghost predicate KindsKnown(kinds: Dict<OreKind, seq<Point>>, oreTypes: set<int>) {
    forall j :: 0 <= j < |kinds| ==> kinds[j].0 in oreTypes
  }

  /** Every ore kind of `kinds` is a member of `OreType`, and none appears twice. */
  ghost predicate OreKindsValid(kinds: Dict<OreKind, seq<Point>>, oreTypes: set<int>) {
    UniqueKeys(kinds) && KindsKnown(kinds, oreTypes)
  }

  /** The ore, structure and building parts of `w` are real dicts with known ore kinds. */
  ghost predicate ObjectsValid<C>(w: World<C>, oreTypes: set<int>) {
    && UniqueKeys(w.ores)
    && UniqueKeys(w.structures)
    && forall i :: 0 <= i < |w.ores| ==> OreKindsValid(w.ores[i].1, oreTypes)
  }

  /**
    A world the generator can hand to the saver: packable, dicts without
    repeated keys, ore kinds drawn from `OreType`, and every noise grid
    `chunkSize` by `chunkSize`.
   */
  ghost predicate Generated(w: World<NoiseChunk>, chunkSize: int, oreTypes: set<int>) {
    && Packable(w, chunkSize)
    && ObjectsValid(w, oreTypes)
    && UniqueKeys(w.chunks)
    && forall i :: 0 <= i < |w.chunks| ==> IsSquare(w.chunks[i].1.grid, chunkSize)
  }

  /** A noise chunk entry as `load_map` stores it: the grid alone. */
  function GridEntry(e: (Point, NoiseChunk)): (Point, Grid) {
    (e.0, e.1.grid)
  }

  /** The world that loading the file of `w` should give back: the same, with each noise chunk reduced to its grid. */
  function Reloaded(w: World<NoiseChunk>): World<Grid> {
    World(w.seed, w.ores, w.structures, w.buildings,
          seq(|w.chunks|, i requires 0 <= i < |w.chunks| => GridEntry(w.chunks[i])))
  }

  /** The seed, ore, structure and building parts of `w`, with no noise chunks. */
  function Objects<C>(w: World<C>): World<Grid> {
    World(w.seed, w.ores, w.structures, w.buildings, [])
  }
}

=== FILE: noise.dfy ===
/**
  The noise section. `save_map` writes each chunk as its position, the
  length of the generator's chunk value, then the sample grid; `load_map`
  reads the position and then the grid, so the two disagree by one field per
  chunk. `NoiseChunkReader(size, false)` is the reader as written and
  `NoiseChunkReader(size, true)` the one that stays in step with the writer.
 */
module NoiseCodec {
  import opened Bytes
  import opened Dict
  import opened Fields
  import opened Model
  import opened Saver
  import opened RoundTrip

  /** The bytes of one row of samples read under chunk size `size`. */
  function RowWidth(size: int): nat {
    Iterations(size) * 4
  }

  /** The bytes of one grid read under chunk size `size`. */
  function GridWidth(size: int): nat {
    Iterations(size) * RowWidth(size)
  }

  /** A loop count of zero or less reads nothing, like a count of zero. */
  lemma ReadListIterations<T>(s: seq<byte>, size: int, item: seq<byte> -> Read<T>)
    ensures ReadList(s, size, item) == ReadList(s, Iterations(size), item)
  {
  }

  // ---- widths ----

  /** A row is `m` words, `m` being `size` or 0 when `size <= 0`: it needs exactly `4 * m` bytes, and only a short read stops it. */
  lemma RowFixedWidth(size: int)
    ensures FixedWidth(RowReader(size), RowWidth(size)) && OnlyTruncates(RowReader(size))
  {
    var m := Iterations(size);
    WordFixedWidth();
    ReadListFixedWidth(m, ReadWord, 4);
    forall s ensures RowReader(size)(s) == (x => ReadList(x, m, ReadWord))(s) {
      ReadListIterations(s, size, ReadWord);
    }
  }

  /** A grid needs exactly `4 * m * m` bytes, `m` being `size` or 0 when `size <= 0`, and only a short read stops it. */
  lemma GridWidthOf(s: seq<byte>, size: int)
    ensures ReadGrid(s, size).Success? <==> |s| >= GridWidth(size)
    ensures ReadGrid(s, size).Success? ==> ReadGrid(s, size).value.rest == s[GridWidth(size)..]
    ensures ReadGrid(s, size).Failure? ==> ReadGrid(s, size).error == Truncated
  {
    var m := Iterations(size);
    RowFixedWidth(size);
    ReadListFixedWidth(m, RowReader(size), RowWidth(size));
    assert (x => ReadList(x, m, RowReader(size)))(s) == ReadList(s, m, RowReader(size));
    ReadListIterations(s, size, RowReader(size));
  }

  /** A point is eight bytes. */
  lemma PointWidth(s: seq<byte>)
    ensures ReadPoint(s).Success? <==> |s| >= 8
    ensures ReadPoint(s).Success? ==> ReadPoint(s).value.rest == s[8..]
    ensures ReadPoint(s).Failure? ==> ReadPoint(s).error == Truncated
  {
    if |s| >= 8 {
      assert s[4..][4..] == s[8..];
    }
  }

  /** One chunk as `load_map` reads it, at any position of the input. */
  lemma ChunkAsWrittenAt(s: seq<byte>, size: int)
    ensures ReadNoiseChunk(s, size).Success? <==> |s| >= 8 + GridWidth(size)
    ensures ReadNoiseChunk(s, size).Success? ==> ReadNoiseChunk(s, size).value.rest == s[8 + GridWidth(size)..]
    ensures ReadNoiseChunk(s, size).Failure? ==> ReadNoiseChunk(s, size).error == Truncated
  {
    PointWidth(s);
    if |s| >= 8 {
      var r := s[8..];
      GridWidthOf(r, size);
      if |r| >= GridWidth(size) {
        assert r[GridWidth(size)..] == s[8 + GridWidth(size)..];
      }
    }
  }

  /** One chunk read in step with the writer, at any position of the input. */
  lemma ChunkFixedAt(s: seq<byte>, size: int)
    ensures ReadNoiseChunkFixed(s, size).Success? <==> |s| >= 12 + GridWidth(size)
    ensures ReadNoiseChunkFixed(s, size).Success? ==> ReadNoiseChunkFixed(s, size).value.rest == s[12 + GridWidth(size)..]
    ensures ReadNoiseChunkFixed(s, size).Failure? ==> ReadNoiseChunkFixed(s, size).error == Truncated
  {
    PointWidth(s);
    if |s| >= 8 {
      var r := s[8..];
      if |r| >= 4 {
        assert r[4..] == s[12..];
        var q := s[12..];
        GridWidthOf(q, size);
        if |q| >= GridWidth(size) {
          assert q[GridWidth(size)..] == s[12 + GridWidth(size)..];
        }
      }
    }
  }

  /** As `load_map` reads it, a chunk takes its position and a grid: `8 + 4 * m * m` bytes, `m` being `size` or 0 when `size <= 0`. */
  lemma ChunkWidthAsWritten(size: int)
    ensures FixedWidth(NoiseChunkReader(size, false), 8 + GridWidth(size))
    ensures OnlyTruncates(NoiseChunkReader(size, false))
  {
    forall s {
      ChunkAsWrittenAt(s, size);
    }
  }

  /** Read in step with the writer, a chunk also takes the stored length: `12 + 4 * m * m` bytes, `m` being `size` or 0 when `size <= 0`. */
  lemma ChunkWidthFixed(size: int)
    ensures FixedWidth(NoiseChunkReader(size, true), 12 + GridWidth(size))
    ensures OnlyTruncates(NoiseChunkReader(size, true))
  {
    forall s {
      ChunkFixedAt(s, size);
    }
  }

  // ---- what the grid holds ----

  /** Row `i` of a grid read under chunk size `size` is the row read at byte `i * 4 * size`. */
  lemma GridRow(s: seq<byte>, size: int, i: nat, at: nat)
    requires ReadGrid(s, size).Success?
    requires i < Iterations(size) && at == i * RowWidth(size)
    ensures at + RowWidth(size) <= |s|
    ensures ReadList(s[at..], size, ReadWord).Success?
    ensures ReadGrid(s, size).value.value[i] == ReadList(s[at..], size, ReadWord).value.value
  {
    assert ReadList(s, Iterations(size), RowReader(size)).Success? by {
      ReadListIterations(s, size, RowReader(size));
    }
    assert FixedWidth(RowReader(size), RowWidth(size)) by {
      RowFixedWidth(size);
    }
    ReadListFixedAt(s, Iterations(size), RowReader(size), RowWidth(size), i, at);
    assert RowReader(size)(s[at..]) == ReadList(s[at..], size, ReadWord);
  }

  /** A grid read under chunk size `size` has `size` rows of `size` samples. */
  lemma GridSquare(s: seq<byte>, size: int)
    requires ReadGrid(s, size).Success?
    ensures IsSquare(ReadGrid(s, size).value.value, Iterations(size))
  {
    var g := ReadGrid(s, size).value.value;
    forall i | 0 <= i < |g| ensures |g[i]| == Iterations(size) {
      GridRow(s, size, i, i * RowWidth(size));
    }
  }

  /** Either chunk reader gives a grid of `size` rows of `size` samples. */
  lemma ChunkSquare(s: seq<byte>, size: int, fixed: bool)
    requires NoiseChunkReader(size, fixed)(s).Success?
    ensures IsSquare(NoiseChunkReader(size, fixed)(s).value.value.1, Iterations(size))
  {
    var key := ReadPoint(s).value;
    if fixed {
      GridSquare(ReadI32(key.rest).value.rest, size);
    } else {
      GridSquare(key.rest, size);
    }
  }

  /**
    The stored chunk size bounds both grid loops of every chunk, whichever
    chunk reader is used: each loaded grid has that many rows of that many
    samples, and none for a stored size of zero or less.
   */
  lemma NoiseSquare(s: seq<byte>, fixed: bool)
    requires ReadNoise(s, fixed).Success?
    ensures |s| >= 4
    ensures forall i :: 0 <= i < |ReadNoise(s, fixed).value.value| ==>
              IsSquare(ReadNoise(s, fixed).value.value[i].1, Iterations(I32Of(s[..4])))
  {
    var size := ReadI32(s).value;
    var item := NoiseChunkReader(size.value, fixed);
    var count := ReadI32(size.rest).value;
    assert ReadCounted(size.rest, item) == ReadList(count.rest, count.value, item);
    var es := ReadList(count.rest, count.value, item).value.value;
    var d := FromEntries(es);
    assert ReadNoise(s, fixed).value.value == d;
    var square := (e: (Point, Grid)) => IsSquare(e.1, Iterations(size.value));
    assert forall j :: 0 <= j < |es| ==> IsSquare(es[j].1, Iterations(size.value)) by {
      forall u ensures item(u).Success? ==> square(item(u).value.value) {
        if item(u).Success? {
          ChunkSquare(u, size.value, fixed);
        }
      }
      ReadListOnly(count.rest, count.value, item, square);
    }
    forall i | 0 <= i < |d| ensures IsSquare(d[i].1, Iterations(size.value)) {
      FromEntriesKeys(es);
      assert d[i] in es;
    }
  }

  /** Sample `j` of a row read under chunk size `size` is the `j`-th word. */
  lemma RowSample(r: seq<byte>, size: int, j: nat)
    requires ReadList(r, size, ReadWord).Success?
    requires j < Iterations(size)
    ensures j * 4 + 4 <= |r|
    ensures ReadList(r, size, ReadWord).value.value[j] == WordOf(r[j * 4..j * 4 + 4])
  {
    ReadListIterations(r, size, ReadWord);
    WordFixedWidth();
    ReadListFixedAt(r, Iterations(size), ReadWord, 4, j, j * 4);
    assert r[j * 4..][..4] == r[j * 4..j * 4 + 4];
  }

  lemma MulShift(i: nat, m: nat)
    ensures i * (m * 4) == 4 * (i * m)
  {
  }

  /** Sample `j` of row `i` is the word at sample index `i * size + j`: the samples are stored row by row. */
  lemma GridRowMajor(s: seq<byte>, size: int, i: nat, j: nat)
    requires ReadGrid(s, size).Success?
    requires i < Iterations(size) && j < Iterations(size)
    ensures 4 * (i * Iterations(size) + j) + 4 <= |s|
    ensures |ReadGrid(s, size).value.value[i]| == Iterations(size)
    ensures ReadGrid(s, size).value.value[i][j] == WordOf(s[4 * (i * Iterations(size) + j)..4 * (i * Iterations(size) + j) + 4])
  {
    var m := Iterations(size);
    var at := i * RowWidth(size);
    var start := 4 * (i * m + j);
    assert at + j * 4 == start by {
      MulShift(i, m);
    }
    GridRow(s, size, i, at);
    GridSquare(s, size);
    RowSample(s[at..], size, j);
    SliceShift(s, at, j * 4);
  }

  lemma SliceShift(s: seq<byte>, at: nat, k: nat)
    requires at + k + 4 <= |s|
    ensures s[at..][k..k + 4] == s[at + k..at + k + 4]
  {
  }

  // ---- the noise section, read in step with the writer ----

  lemma RowReads(row: seq<uint32>, size: int)
    requires |row| == size
    ensures Inverts(RowReader(size), RowBytes, row)
  {
    forall i | 0 <= i < |row| ensures Inverts(ReadWord, WordBytes, row[i]) {
      forall t ensures ReadWord(WordBytes(row[i]) + t) == Success(Parsed(row[i], t)) {
        ReadWordBytes(row[i], t);
      }
    }
    forall t ensures RowReader(size)(RowBytes(row) + t) == Success(Parsed(row, t)) {
      ReadListConcat(row, WordBytes, ReadWord, t);
    }
  }

  /** A square grid reads back from its rows. */
  lemma GridReads(grid: Grid, size: int, t: seq<byte>)
    requires IsSquare(grid, size)
    ensures ReadGrid(Concat(grid, RowBytes) + t, size) == Success(Parsed(grid, t))
  {
    forall i | 0 <= i < |grid| ensures Inverts(RowReader(size), RowBytes, grid[i]) {
      RowReads(grid[i], size);
    }
    ReadListConcat(grid, RowBytes, RowReader(size), t);
  }

  /** A square grid of side `size` takes `4 * size * size` bytes. */
  lemma GridBytesLength(grid: Grid, size: int)
    requires IsSquare(grid, size)
    ensures |Concat(grid, RowBytes)| == GridWidth(size)
  {
    forall i | 0 <= i < |grid| ensures |RowBytes(grid[i])| == RowWidth(size) {
      ConcatUniformLength(grid[i], WordBytes, 4);
    }
    ConcatUniformLength(grid, RowBytes, RowWidth(size));
  }

  /** A chunk with a square grid takes `12 + 4 * size * size` bytes. */
  lemma NoiseChunkLength(e: (Point, NoiseChunk), size: int)
    requires IsSquare(e.1.grid, size)
    ensures |NoiseChunkBytes(e)| == 12 + GridWidth(size)
  {
    GridBytesLength(e.1.grid, size);
  }

  /** Read in step with the writer, a chunk gives back its position and grid. */
  lemma NoiseChunkReadsFixed(e: (Point, NoiseChunk), size: int)
    requires NoiseChunkPackable(e) && IsSquare(e.1.grid, size)
    ensures ReadsAs(NoiseChunkReader(size, true), NoiseChunkBytes, e, GridEntry(e))
  {
    forall t ensures NoiseChunkReader(size, true)(NoiseChunkBytes(e) + t) == Success(Parsed(GridEntry(e), t)) {
      var g := Concat(e.1.grid, RowBytes) + t;
      assert NoiseChunkBytes(e) + t == PointBytes(e.0) + (I32Bytes(1 + e.1.others) + g);
      PointReads(e.0);
      ReadI32Bytes(1 + e.1.others, g);
      GridReads(e.1.grid, size, t);
    }
  }

  /** Chunks that all hold square grids of the stored size, with every field packable. */
  ghost predicate ChunksFit(chunkSize: int, chunks: Dict<Point, NoiseChunk>) {
    && IsInt32(chunkSize)
    && CountFits(|chunks|)
    && forall i :: 0 <= i < |chunks| ==> NoiseChunkPackable(chunks[i]) && IsSquare(chunks[i].1.grid, chunkSize)
  }

  /** Read in step with the writer, the noise section gives back each chunk's grid, assigned in stream order. */
  lemma NoiseReadsFixed(chunkSize: int, chunks: Dict<Point, NoiseChunk>, t: seq<byte>)
    requires ChunksFit(chunkSize, chunks)
    ensures ReadNoise(NoiseBytes(chunkSize, chunks) + t, true) ==
            Success(Parsed(FromEntries(MapSeq(chunks, GridEntry)), t))
  {
    var c := Counted(chunks, NoiseChunkBytes) + t;
    assert NoiseBytes(chunkSize, chunks) + t == I32Bytes(chunkSize) + c;
    ReadI32Bytes(chunkSize, c);
    forall i | 0 <= i < |chunks| ensures ReadsAs(NoiseChunkReader(chunkSize, true), NoiseChunkBytes, chunks[i], GridEntry(chunks[i])) {
      NoiseChunkReadsFixed(chunks[i], chunkSize);
    }
    CountedReadsAs(chunks, NoiseChunkBytes, GridEntry, NoiseChunkReader(chunkSize, true), t);
  }

  /** Read in step with the writer, a chunk with a square grid is delimited. */
  lemma NoiseChunkDelimitedFixed(e: (Point, NoiseChunk), size: int)
    requires IsSquare(e.1.grid, size)
    ensures Delimited(NoiseChunkReader(size, true), NoiseChunkBytes, e)
  {
    NoiseChunkLength(e, size);
    ChunkWidthFixed(size);
    FixedDelimited(NoiseChunkReader(size, true), NoiseChunkBytes, e, 12 + GridWidth(size));
  }

  /** Read in step with the writer, a noise section cut anywhere reports a short read. */
  lemma NoiseCutFixed(chunkSize: int, chunks: Dict<Point, NoiseChunk>, k: nat)
    requires ChunksFit(chunkSize, chunks)
    requires k < |NoiseBytes(chunkSize, chunks)|
    ensures ReadNoise(NoiseBytes(chunkSize, chunks)[..k], true) == Failure(Truncated)
  {
    var c := Counted(chunks, NoiseChunkBytes);
    CutConcat(I32Bytes(chunkSize), c, k);
    if k >= 4 {
      var u := NoiseBytes(chunkSize, chunks)[..k];
      assert ReadI32(u) == Success(Parsed(chunkSize, c[..k - 4])) by {
        ReadI32Bytes(chunkSize, c[..k - 4]);
      }
      assert ReadCounted(c[..k - 4], NoiseChunkReader(chunkSize, true)) == Failure(Truncated) by {
        forall i | 0 <= i < |chunks| ensures Delimited(NoiseChunkReader(chunkSize, true), NoiseChunkBytes, chunks[i]) {
          NoiseChunkDelimitedFixed(chunks[i], chunkSize);
        }
        CountedCut(chunks, NoiseChunkBytes, NoiseChunkReader(chunkSize, true), k - 4);
      }
    }
  }

  // ---- the noise section as `load_map` reads it ----

  lemma WidthGap(n: nat, g: nat)
    ensures n * (12 + g) == n * (8 + g) + 4 * n
  {
  }

  lemma NoiseBytesSplit(chunkSize: int, chunks: Dict<Point, NoiseChunk>, t: seq<byte>)
    ensures NoiseBytes(chunkSize, chunks) + t ==
            I32Bytes(chunkSize) + (I32Bytes(|chunks|) + (Concat(chunks, NoiseChunkBytes) + t))
  {
  }

  /** `ReadNoise` in one step, once the chunk size and the chunks are known to read. */
  lemma ReadNoiseOn(s: seq<byte>, fixed: bool, size: int, c: seq<byte>, items: seq<(Point, Grid)>, rest: seq<byte>)
    requires ReadI32(s) == Success(Parsed(size, c))
    requires ReadCounted(c, NoiseChunkReader(size, fixed)) == Success(Parsed(items, rest))
    ensures ReadNoise(s, fixed) == Success(Parsed(FromEntries(items), rest))
  {
  }

  /** The chunks of a noise section with square grids take `12 + 4 * size * size` bytes each. */
  lemma ChunksLength(chunkSize: int, chunks: Dict<Point, NoiseChunk>)
    requires ChunksFit(chunkSize, chunks)
    ensures |Concat(chunks, NoiseChunkBytes)| == |chunks| * (8 + GridWidth(chunkSize)) + 4 * |chunks|
  {
    var g := GridWidth(chunkSize);
    forall i | 0 <= i < |chunks| ensures |NoiseChunkBytes(chunks[i])| == 12 + g {
      NoiseChunkLength(chunks[i], chunkSize);
    }
    ConcatUniformLength(chunks, NoiseChunkBytes, 12 + g);
    WidthGap(|chunks|, g);
  }

  /**
    As written, each chunk is read four bytes short of what was written, so
    reading a whole noise section succeeds but leaves `4` bytes per chunk
    unread before whatever follows it.
   */
  lemma NoiseAsWritten(chunkSize: int, chunks: Dict<Point, NoiseChunk>, t: seq<byte>)
    requires ChunksFit(chunkSize, chunks)
    ensures ReadNoise(NoiseBytes(chunkSize, chunks) + t, false).Success?
    ensures |ReadNoise(NoiseBytes(chunkSize, chunks) + t, false).value.value| <= |chunks|
    ensures |ReadNoise(NoiseBytes(chunkSize, chunks) + t, false).value.rest| == 4 * |chunks| + |t|
    ensures ReadNoise(NoiseBytes(chunkSize, chunks) + t, false).value.rest[4 * |chunks|..] == t
  {
    var n := |chunks|;
    var width := 8 + GridWidth(chunkSize);
    var reader := NoiseChunkReader(chunkSize, false);
    var written := Concat(chunks, NoiseChunkBytes);
    var body := written + t;
    var c := I32Bytes(n) + body;
    assert |written| == n * width + 4 * n by {
      ChunksLength(chunkSize, chunks);
    }
    assert FixedWidth(reader, width) by {
      ChunkWidthAsWritten(chunkSize);
    }
    ReadListSlack(written, t, n, reader, width, 4 * n);
    var read := ReadList(body, n, reader);
    ReadCountedOn(c, n, body, reader);
    NoiseBytesSplit(chunkSize, chunks, t);
    ReadI32Bytes(chunkSize, c);
    ReadNoiseOn(NoiseBytes(chunkSize, chunks) + t, false, chunkSize, c, read.value.value, read.value.rest);
    FromEntriesKeys(read.value.value);
  }

  /** As written, every grid read from a noise section of square grids has the side the section stores. */
  lemma NoiseSquareAsWritten(chunkSize: int, chunks: Dict<Point, NoiseChunk>, t: seq<byte>)
    requires ChunksFit(chunkSize, chunks)
    ensures ReadNoise(NoiseBytes(chunkSize, chunks) + t, false).Success?
    ensures forall i :: 0 <= i < |ReadNoise(NoiseBytes(chunkSize, chunks) + t, false).value.value| ==>
              IsSquare(ReadNoise(NoiseBytes(chunkSize, chunks) + t, false).value.value[i].1, chunkSize)
  {
    var n := NoiseBytes(chunkSize, chunks) + t;
    NoiseAsWritten(chunkSize, chunks, t);
    var read := ReadNoise(n, false).value.value;
    assert |n| >= 4 && I32Of(n[..4]) == chunkSize by {
      assert n == I32Bytes(chunkSize) + (Counted(chunks, NoiseChunkBytes) + t);
      I32RoundTrip(chunkSize);
    }
    NoiseSquare(n, false);
    if |read| > 0 {
      assert Iterations(chunkSize) == chunkSize by {
        assert IsSquare(chunks[0].1.grid, chunkSize);
      }
    }
  }
}

=== FILE: objects.dfy ===
/**
  The part of the file before the noise section: signature, seed, ores,
  structures and buildings, read back as a whole.
 */
module ObjectCodec {
  import opened Bytes
  import opened Dict
  import opened Fields
  import opened Model
  import opened Saver
  import opened RoundTrip

  /** A structure section without repeated chunks reads back exactly. */
  lemma StructuresReadBack(structures: Dict<Point, seq<Structure>>, t: seq<byte>)
    requires CountFits(|structures|) && UniqueKeys(structures)
    requires forall i :: 0 <= i < |structures| ==> StructureChunkPackable(structures[i])
    ensures ReadStructures(Counted(structures, StructureChunkBytes) + t) == Success(Parsed(structures, t))
  {
    StructuresRead(structures, t);
    FromEntriesUnique(structures);
  }

  lemma Regroup(a: seq<byte>, b: seq<byte>, c: seq<byte>, d: seq<byte>, e: seq<byte>, t: seq<byte>)
    ensures a + b + (c + (d + e)) + t == a + (b + (c + (d + (e + t))))
  {
  }

  /** The bytes of `w` before its noise section, split after the signature and the seed. */
  lemma ObjectBytesSplit<C>(w: World<C>, t: seq<byte>)
    ensures ObjectBytes(w) + t ==
      Signature + (I32Bytes(w.seed) + (Counted(w.ores, OreChunkBytes) +
        (Counted(w.structures, StructureChunkBytes) + (Counted(w.buildings, BuildingBytes) + t))))
  {
    Regroup(Signature, I32Bytes(w.seed), Counted(w.ores, OreChunkBytes),
            Counted(w.structures, StructureChunkBytes), Counted(w.buildings, BuildingBytes), t);
  }

  /** The header of a map file is its first eight bytes. */
  lemma HeaderSplit(x: seq<byte>, o: seq<byte>)
    requires |x| == 4
    ensures |Signature + (x + o)| >= 8
    ensures (Signature + (x + o))[..4] == Signature
    ensures (Signature + (x + o))[8..] == o
  {
  }

  /** `LoadObjects` in one step, once each section is known to read. */
  lemma LoadObjectsOn(s: seq<byte>, oreTypes: set<int>, seed: int, sd: seq<byte>, o: seq<byte>,
                      ores: Dict<Point, Dict<OreKind, seq<Point>>>, st: seq<byte>,
                      structures: Dict<Point, seq<Structure>>, b: seq<byte>, buildings: seq<Building>, t: seq<byte>)
    requires s == Signature + sd
    requires ReadI32(sd) == Success(Parsed(seed, o))
    requires ReadOres(o, oreTypes) == Success(Parsed(ores, st))
    requires ReadStructures(st) == Success(Parsed(structures, b))
    requires ReadCounted(b, ReadBuilding) == Success(Parsed(buildings, t))
    ensures LoadObjects(s, oreTypes) == Success(Parsed(World(seed, ores, structures, buildings, []), t))
  {
    assert s[..4] == Signature && s[4..] == sd;
  }

  /** Everything before the noise section of a valid world reads back exactly, whatever follows it. */
  lemma LoadObjectsReads<C>(w: World<C>, oreTypes: set<int>, t: seq<byte>)
    requires ObjectsPackable(w) && ObjectsValid(w, oreTypes)
    ensures LoadObjects(ObjectBytes(w) + t, oreTypes) == Success(Parsed(Objects(w), t))
  {
    var b := Counted(w.buildings, BuildingBytes) + t;
    var st := Counted(w.structures, StructureChunkBytes) + b;
    var o := Counted(w.ores, OreChunkBytes) + st;
    var sd := I32Bytes(w.seed) + o;
    ObjectBytesSplit(w, t);
    ReadI32Bytes(w.seed, o);
    OresReadBack(w.ores, oreTypes, st);
    StructuresReadBack(w.structures, b);
    BuildingsRead(w.buildings, t);
    LoadObjectsOn(ObjectBytes(w) + t, oreTypes, w.seed, sd, o, w.ores, st, w.structures, b, w.buildings, t);
  }

  /**
    Repeated chunk positions: loading assigns each section's chunks in stream
    order, so a position maps to the value of its last chunk, and within an
    ore chunk each kind to the points of its last occurrence.
   */
  lemma LoadObjectsLastWins<C>(w: World<C>, oreTypes: set<int>, t: seq<byte>, p: Point)
    requires ObjectsPackable(w)
    requires forall i :: 0 <= i < |w.ores| ==> KindsKnown(w.ores[i].1, oreTypes)
    ensures LoadObjects(ObjectBytes(w) + t, oreTypes).Success?
    ensures Lookup(LoadObjects(ObjectBytes(w) + t, oreTypes).value.value.ores, p) == LastValue(MapSeq(w.ores, AssignedKinds), p)
    ensures Lookup(LoadObjects(ObjectBytes(w) + t, oreTypes).value.value.structures, p) == LastValue(w.structures, p)
    ensures LoadObjects(ObjectBytes(w) + t, oreTypes).value.value.buildings == w.buildings
  {
    var b := Counted(w.buildings, BuildingBytes) + t;
    var st := Counted(w.structures, StructureChunkBytes) + b;
    var o := Counted(w.ores, OreChunkBytes) + st;
    var sd := I32Bytes(w.seed) + o;
    ObjectBytesSplit(w, t);
    ReadI32Bytes(w.seed, o);
    OresRead(w.ores, oreTypes, st);
    StructuresRead(w.structures, b);
    BuildingsRead(w.buildings, t);
    var ores := FromEntries(MapSeq(w.ores, AssignedKinds));
    var structures := FromEntries(w.structures);
    LoadObjectsOn(ObjectBytes(w) + t, oreTypes, w.seed, sd, o, ores, st, structures, b, w.buildings, t);
    FromEntriesLastWins(MapSeq(w.ores, AssignedKinds), p);
    FromEntriesLastWins(w.structures, p);
  }

  // ---- a file cut short ----

  /** Cut inside the signature or the seed. */
  lemma LoadObjectsCutHeader(s: seq<byte>, oreTypes: set<int>)
    requires |s| < 8 && (|s| >= 4 ==> s[..4] == Signature)
    ensures LoadObjects(s, oreTypes) == Failure(Truncated)
  {
    if |s| >= 4 {
      assert ReadSignature(s) == Success(Parsed((), s[4..]));
    }
  }

  /** A failing ore section fails the load with the same error. */
  lemma LoadObjectsFailsAtOres(s: seq<byte>, oreTypes: set<int>, o: seq<byte>)
    requires |s| >= 8 && s[..4] == Signature && s[8..] == o
    requires ReadOres(o, oreTypes).Failure?
    ensures LoadObjects(s, oreTypes) == Failure(ReadOres(o, oreTypes).error)
  {
    assert s[4..][4..] == o;
  }

  /** Cut inside the structure section. */
  lemma LoadObjectsCutStructures(s: seq<byte>, oreTypes: set<int>, o: seq<byte>, st: seq<byte>)
    requires |s| >= 8 && s[..4] == Signature && s[8..] == o
    requires ReadOres(o, oreTypes).Success? && ReadOres(o, oreTypes).value.rest == st
    requires ReadStructures(st) == Failure(Truncated)
    ensures LoadObjects(s, oreTypes) == Failure(Truncated)
  {
    assert s[4..][4..] == o;
  }

  /** Cut inside the building section. */
  lemma LoadObjectsCutBuildings(s: seq<byte>, oreTypes: set<int>, o: seq<byte>, st: seq<byte>, b: seq<byte>)
    requires |s| >= 8 && s[..4] == Signature && s[8..] == o
    requires ReadOres(o, oreTypes).Success? && ReadOres(o, oreTypes).value.rest == st
    requires ReadStructures(st).Success? && ReadStructures(st).value.rest == b
    requires ReadCounted(b, ReadBuilding) == Failure(Truncated)
    ensures LoadObjects(s, oreTypes) == Failure(Truncated)
  {
    assert s[4..][4..] == o;
  }

  /** Cut at `k` past a header, a sequence keeps the header and the first `k - |head|` bytes of the body. */
  lemma CutAfter(s: seq<byte>, head: seq<byte>, body: seq<byte>, k: nat)
    requires s == head + body && |head| <= k <= |s|
    ensures s[..k][..|head|] == head && s[..k][|head|..] == body[..k - |head|]
  {
  }

  /** Where a cut falls in the second of three parts. */
  lemma CutMiddle(a: seq<byte>, b: seq<byte>, c: seq<byte>, j: nat)
    requires |a| <= j <= |a| + |b|
    ensures (a + (b + c))[..j] == a + b[..j - |a|]
  {
  }

  /** Where a cut falls in the last of three parts. */
  lemma CutLast(a: seq<byte>, b: seq<byte>, c: seq<byte>, j: nat)
    requires |a| + |b| <= j <= |a| + |b| + |c|
    ensures (a + (b + c))[..j] == a + (b + c[..j - |a| - |b|])
  {
  }

  /** The first `k` bytes of the object part, past the seed: the header, then the sections cut at `k - 8`. */
  lemma ObjectBytesCut<C>(w: World<C>, k: nat)
    requires 8 <= k <= |ObjectBytes(w)|
    ensures ObjectBytes(w)[..k][..4] == Signature
    ensures ObjectBytes(w)[..k][8..] == ObjectSections(w)[..k - 8]
  {
    CutAfter(ObjectBytes(w), Signature + I32Bytes(w.seed), ObjectSections(w), k);
  }

  lemma CutInOres<C>(w: World<C>, oreTypes: set<int>, k: nat)
    requires ObjectsPackable(w) && ObjectsValid(w, oreTypes)
    requires 8 <= k < 8 + |Counted(w.ores, OreChunkBytes)|
    ensures LoadObjects(ObjectBytes(w)[..k], oreTypes) == Failure(Truncated)
  {
    var u := ObjectBytes(w)[..k];
    var oresBytes := Counted(w.ores, OreChunkBytes);
    var o := oresBytes[..k - 8];
    assert |u| >= 8 && u[..4] == Signature && u[8..] == o by {
      var others := Counted(w.structures, StructureChunkBytes) + Counted(w.buildings, BuildingBytes);
      ObjectBytesCut(w, k);
      CutConcat(oresBytes, others, k - 8);
    }
    assert ReadOres(o, oreTypes) == Failure(Truncated) by {
      OresCut(w.ores, oreTypes, k - 8);
    }
    LoadObjectsFailsAtOres(u, oreTypes, o);
  }

  lemma CutInStructures<C>(w: World<C>, oreTypes: set<int>, k: nat)
    requires ObjectsPackable(w) && ObjectsValid(w, oreTypes)
    requires 8 + |Counted(w.ores, OreChunkBytes)| <= k
    requires k < 8 + |Counted(w.ores, OreChunkBytes)| + |Counted(w.structures, StructureChunkBytes)|
    ensures LoadObjects(ObjectBytes(w)[..k], oreTypes) == Failure(Truncated)
  {
    var u := ObjectBytes(w)[..k];
    var oresBytes := Counted(w.ores, OreChunkBytes);
    var structuresBytes := Counted(w.structures, StructureChunkBytes);
    var j := k - 8 - |oresBytes|;
    var st := structuresBytes[..j];
    assert |u| >= 8 && u[..4] == Signature && u[8..] == oresBytes + st by {
      ObjectBytesCut(w, k);
      CutMiddle(oresBytes, structuresBytes, Counted(w.buildings, BuildingBytes), k - 8);
    }
    assert ReadOres(oresBytes + st, oreTypes) == Success(Parsed(w.ores, st)) by {
      OresReadBack(w.ores, oreTypes, st);
    }
    assert ReadStructures(st) == Failure(Truncated) by {
      StructuresCut(w.structures, j);
    }
    LoadObjectsCutStructures(u, oreTypes, oresBytes + st, st);
  }

  lemma CutInBuildings<C>(w: World<C>, oreTypes: set<int>, k: nat)
    requires ObjectsPackable(w) && ObjectsValid(w, oreTypes)
    requires 8 + |Counted(w.ores, OreChunkBytes)| + |Counted(w.structures, StructureChunkBytes)| <= k < |ObjectBytes(w)|
    ensures LoadObjects(ObjectBytes(w)[..k], oreTypes) == Failure(Truncated)
  {
    var u := ObjectBytes(w)[..k];
    var oresBytes := Counted(w.ores, OreChunkBytes);
    var structuresBytes := Counted(w.structures, StructureChunkBytes);
    var buildingsBytes := Counted(w.buildings, BuildingBytes);
    var j := k - 8 - |oresBytes| - |structuresBytes|;
    var b := buildingsBytes[..j];
    assert |u| >= 8 && u[..4] == Signature && u[8..] == oresBytes + (structuresBytes + b) by {
      ObjectBytesCut(w, k);
      CutLast(oresBytes, structuresBytes, buildingsBytes, k - 8);
    }
    assert ReadOres(oresBytes + (structuresBytes + b), oreTypes) == Success(Parsed(w.ores, structuresBytes + b)) by {
      OresReadBack(w.ores, oreTypes, structuresBytes + b);
    }
    assert ReadStructures(structuresBytes + b) == Success(Parsed(w.structures, b)) by {
      StructuresReadBack(w.structures, b);
    }
    assert ReadCounted(b, ReadBuilding) == Failure(Truncated) by {
      BuildingsCut(w.buildings, j);
    }
    LoadObjectsCutBuildings(u, oreTypes, oresBytes + (structuresBytes + b), structuresBytes + b, b);
  }

  /** Cut anywhere before the noise section, the file does not load. */
  lemma LoadObjectsCut<C>(w: World<C>, oreTypes: set<int>, k: nat)
    requires ObjectsPackable(w) && ObjectsValid(w, oreTypes)
    requires k < |ObjectBytes(w)|
    ensures LoadObjects(ObjectBytes(w)[..k], oreTypes) == Failure(Truncated)
  {
    var n1 := 8 + |Counted(w.ores, OreChunkBytes)|;
    var n2 := n1 + |Counted(w.structures, StructureChunkBytes)|;
    if k < 8 {
      var u := ObjectBytes(w)[..k];
      assert k >= 4 ==> u[..4] == ObjectBytes(w)[..4] == Signature;
      LoadObjectsCutHeader(u, oreTypes);
    } else if k < n1 {
      CutInOres(w, oreTypes, k);
    } else if k < n2 {
      CutInStructures(w, oreTypes, k);
    } else {
      CutInBuildings(w, oreTypes, k);
    }
  }

  // ---- an unknown ore kind ----

  /** Some ore kind of `w` names no `OreType` member. */
  ghost predicate HasUnknownKind<C>(w: World<C>, oreTypes: set<int>) {
    exists i :: 0 <= i < |w.ores| && !KindsKnown(w.ores[i].1, oreTypes)
  }

  /** An ore section holding a kind that is not an `OreType` member fails with an unknown-tag error. */
  lemma OresRejected(ores: Dict<Point, Dict<OreKind, seq<Point>>>, oreTypes: set<int>, t: seq<byte>)
    requires CountFits(|ores|)
    requires forall i :: 0 <= i < |ores| ==> OreChunkPackable(ores[i])
    requires exists i :: 0 <= i < |ores| && !KindsKnown(ores[i].1, oreTypes)
    ensures ReadOres(Counted(ores, OreChunkBytes) + t, oreTypes).Failure?
    ensures UnknownTag(oreTypes)(ReadOres(Counted(ores, OreChunkBytes) + t, oreTypes).error)
  {
    forall i | 0 <= i < |ores|
      ensures Delimited(OreChunkReader(oreTypes), OreChunkBytes, ores[i]) ||
              FailsWith(OreChunkReader(oreTypes), OreChunkBytes, ores[i], UnknownTag(oreTypes))
    {
      if KindsKnown(ores[i].1, oreTypes) {
        OreChunkDelimited(ores[i], oreTypes);
      } else {
        OreChunkRejected(ores[i], oreTypes);
      }
    }
    var i :| 0 <= i < |ores| && !KindsKnown(ores[i].1, oreTypes);
    OreChunkRejected(ores[i], oreTypes);
    CountedFailsWith(ores, OreChunkBytes, OreChunkReader(oreTypes), UnknownTag(oreTypes), t);
  }

  /** Loading fails on an ore kind that is not an `OreType` member, with an error naming a tag outside `OreType`. */
  lemma LoadObjectsRejects<C>(w: World<C>, oreTypes: set<int>, t: seq<byte>)
    requires ObjectsPackable(w) && HasUnknownKind(w, oreTypes)
    ensures LoadObjects(ObjectBytes(w) + t, oreTypes).Failure?
    ensures UnknownTag(oreTypes)(LoadObjects(ObjectBytes(w) + t, oreTypes).error)
  {
    var st := Counted(w.structures, StructureChunkBytes) + (Counted(w.buildings, BuildingBytes) + t);
    var o := Counted(w.ores, OreChunkBytes) + st;
    var s := ObjectBytes(w) + t;
    assert |s| >= 8 && s[..4] == Signature && s[8..] == o by {
      ObjectBytesSplit(w, t);
      HeaderSplit(I32Bytes(w.seed), o);
    }
    assert ReadOres(o, oreTypes).Failure? && UnknownTag(oreTypes)(ReadOres(o, oreTypes).error) by {
      OresRejected(w.ores, oreTypes, st);
    }
    LoadObjectsFailsAtOres(s, oreTypes, o);
  }
}

=== FILE: roundtrip.dfy ===
/**
  Reading back what `save_map` wrote, one level of the format at a time:
  every reader recovers the value whose bytes it is given and stops right
  after them, and cut anywhere inside those bytes it reports a short read.
 */
module RoundTrip {
  import opened Bytes
  import opened Dict
  import opened Fields
  import opened Model
  import opened Saver

  // ---- points ----

  lemma PointReads(p: Point)
    requires PointPackable(p)
    ensures Inverts(ReadPoint, PointBytes, p)
  {
    forall t ensures ReadPoint(PointBytes(p) + t) == Success(Parsed(p, t)) {
      assert PointBytes(p) + t == I32Bytes(p.x) + (I32Bytes(p.y) + t);
      ReadI32Bytes(p.x, I32Bytes(p.y) + t);
      ReadI32Bytes(p.y, t);
    }
  }

  lemma PointDelimited(p: Point)
    requires PointPackable(p)
    ensures Delimited(ReadPoint, PointBytes, p)
  {
    PointReads(p);
    forall k | 0 <= k < |PointBytes(p)| ensures ReadPoint(PointBytes(p)[..k]) == Failure(Truncated) {
      CutConcat(I32Bytes(p.x), I32Bytes(p.y), k);
      if k >= 4 {
        ReadI32Bytes(p.x, I32Bytes(p.y)[..k - 4]);
      }
    }
  }

  lemma PointListReads(ps: seq<Point>, t: seq<byte>)
    requires PointsPackable(ps)
    ensures ReadPointList(PointListBytes(ps) + t) == Success(Parsed(ps, t))
  {
    forall i | 0 <= i < |ps| ensures Inverts(ReadPoint, PointBytes, ps[i]) {
      PointReads(ps[i]);
    }
    CountedInverts(ps, PointBytes, ReadPoint, t);
  }

  lemma PointListCut(ps: seq<Point>, k: nat)
    requires PointsPackable(ps)
    requires k < |PointListBytes(ps)|
    ensures ReadPointList(PointListBytes(ps)[..k]) == Failure(Truncated)
  {
    forall i | 0 <= i < |ps| ensures Delimited(ReadPoint, PointBytes, ps[i]) {
      PointDelimited(ps[i]);
    }
    CountedCut(ps, PointBytes, ReadPoint, k);
  }

  // ---- ores ----

  lemma OreKindReads(e: (OreKind, seq<Point>), oreTypes: set<int>)
    requires OreKindPackable(e) && e.0 in oreTypes
    ensures Inverts(OreKindReader(oreTypes), OreKindBytes, e)
  {
    forall t ensures OreKindReader(oreTypes)(OreKindBytes(e) + t) == Success(Parsed(e, t)) {
      var u := OreKindBytes(e) + t;
      assert u == [ByteOf(e.0)] + (PointListBytes(e.1) + t);
      assert ReadByte(u) == Success(Parsed(e.0, PointListBytes(e.1) + t));
      PointListReads(e.1, t);
      assert ReadOreKind(u, oreTypes) == Success(Parsed(e, t));
    }
  }

  lemma OreKindDelimited(e: (OreKind, seq<Point>), oreTypes: set<int>)
    requires OreKindPackable(e) && e.0 in oreTypes
    ensures Delimited(OreKindReader(oreTypes), OreKindBytes, e)
  {
    OreKindReads(e, oreTypes);
    forall k | 0 <= k < |OreKindBytes(e)| ensures OreKindReader(oreTypes)(OreKindBytes(e)[..k]) == Failure(Truncated) {
      OreKindCutAt(e, oreTypes, k);
    }
  }

  lemma OreKindCutAt(e: (OreKind, seq<Point>), oreTypes: set<int>, k: nat)
    requires OreKindPackable(e) && e.0 in oreTypes
    requires k < |OreKindBytes(e)|
    ensures ReadOreKind(OreKindBytes(e)[..k], oreTypes) == Failure(Truncated)
  {
    CutConcat([ByteOf(e.0)], PointListBytes(e.1), k);
    if k >= 1 {
      var r := PointListBytes(e.1)[..k - 1];
      assert OreKindBytes(e)[..k] == [e.0] + r;
      assert ReadByte(OreKindBytes(e)[..k]) == Success(Parsed(e.0, r));
      PointListCut(e.1, k - 1);
    }
  }

  /** An unknown tag fails the ore kind, whatever follows it. */
  lemma OreKindRejected(e: (OreKind, seq<Point>), oreTypes: set<int>)
    requires OreKindPackable(e) && e.0 !in oreTypes
    ensures forall t :: OreKindReader(oreTypes)(OreKindBytes(e) + t) == Failure(InvalidOreType(e.0))
    ensures FailsWith(OreKindReader(oreTypes), OreKindBytes, e, UnknownTag(oreTypes))
  {
    forall t ensures OreKindReader(oreTypes)(OreKindBytes(e) + t) == Failure(InvalidOreType(e.0)) {
      var u := OreKindBytes(e) + t;
      assert u == [ByteOf(e.0)] + (PointListBytes(e.1) + t);
      assert ReadByte(u) == Success(Parsed(e.0, PointListBytes(e.1) + t));
      assert ReadOreKind(u, oreTypes) == Failure(InvalidOreType(e.0));
    }
  }

  /** Errors reporting a tag that names no `OreType` member. */
  function UnknownTag(oreTypes: set<int>): Error -> bool {
    (err: Error) => err.InvalidOreType? && err.tag !in oreTypes
  }

  /** The kinds of an ore chunk, as `load_map` leaves them: assigned into a dict in stream order. */
  function AssignedKinds(e: (Point, Dict<OreKind, seq<Point>>)): (Point, Dict<OreKind, seq<Point>>) {
    (e.0, FromEntries(e.1))
  }

  lemma OreChunkReads(e: (Point, Dict<OreKind, seq<Point>>), oreTypes: set<int>)
    requires OreChunkPackable(e) && KindsKnown(e.1, oreTypes)
    ensures ReadsAs(OreChunkReader(oreTypes), OreChunkBytes, e, AssignedKinds(e))
  {
    forall t ensures OreChunkReader(oreTypes)(OreChunkBytes(e) + t) == Success(Parsed(AssignedKinds(e), t)) {
      OreChunkReadsBefore(e, oreTypes, t);
    }
  }

  lemma OreChunkReadsBefore(e: (Point, Dict<OreKind, seq<Point>>), oreTypes: set<int>, t: seq<byte>)
    requires OreChunkPackable(e) && KindsKnown(e.1, oreTypes)
    ensures ReadOreChunk(OreChunkBytes(e) + t, oreTypes) == Success(Parsed(AssignedKinds(e), t))
  {
    var u := OreChunkBytes(e) + t;
    var r := Counted(e.1, OreKindBytes) + t;
    assert u == PointBytes(e.0) + r;
    PointReads(e.0);
    OreKindsRead(e.1, oreTypes, t);
    ReadOreChunkOn(u, oreTypes, e.0, r, e.1, t);
  }

  lemma OreKindsRead(kinds: Dict<OreKind, seq<Point>>, oreTypes: set<int>, t: seq<byte>)
    requires CountFits(|kinds|) && KindsKnown(kinds, oreTypes)
    requires forall j :: 0 <= j < |kinds| ==> OreKindPackable(kinds[j])
    ensures ReadCounted(Counted(kinds, OreKindBytes) + t, OreKindReader(oreTypes)) == Success(Parsed(kinds, t))
  {
    forall j | 0 <= j < |kinds| ensures Inverts(OreKindReader(oreTypes), OreKindBytes, kinds[j]) {
      OreKindReads(kinds[j], oreTypes);
    }
    CountedInverts(kinds, OreKindBytes, OreKindReader(oreTypes), t);
  }

  lemma ReadOreChunkOn(u: seq<byte>, oreTypes: set<int>, p: Point, r: seq<byte>, kinds: Dict<OreKind, seq<Point>>, t: seq<byte>)
    requires ReadPoint(u) == Success(Parsed(p, r))
    requires ReadCounted(r, OreKindReader(oreTypes)) == Success(Parsed(kinds, t))
    ensures ReadOreChunk(u, oreTypes) == Success(Parsed((p, FromEntries(kinds)), t))
  {
  }

  lemma OreChunkDelimited(e: (Point, Dict<OreKind, seq<Point>>), oreTypes: set<int>)
    requires OreChunkPackable(e) && KindsKnown(e.1, oreTypes)
    ensures Delimited(OreChunkReader(oreTypes), OreChunkBytes, e)
  {
    OreChunkReads(e, oreTypes);
    forall k | 0 <= k < |OreChunkBytes(e)| ensures OreChunkReader(oreTypes)(OreChunkBytes(e)[..k]) == Failure(Truncated) {
      OreChunkCutAt(e, oreTypes, k);
    }
  }

  lemma OreChunkCutAt(e: (Point, Dict<OreKind, seq<Point>>), oreTypes: set<int>, k: nat)
    requires OreChunkPackable(e) && KindsKnown(e.1, oreTypes)
    requires k < |OreChunkBytes(e)|
    ensures ReadOreChunk(OreChunkBytes(e)[..k], oreTypes) == Failure(Truncated)
  {
    var u := OreChunkBytes(e)[..k];
    CutConcat(PointBytes(e.0), Counted(e.1, OreKindBytes), k);
    if k < 8 {
      PointDelimited(e.0);
      assert ReadPoint(u) == Failure(Truncated);
    } else {
      var r := Counted(e.1, OreKindBytes)[..k - 8];
      assert u == PointBytes(e.0) + r;
      PointReads(e.0);
      assert ReadPoint(u) == Success(Parsed(e.0, r));
      OreKindsCut(e.1, oreTypes, k - 8);
    }
  }

  lemma OreKindsCut(kinds: Dict<OreKind, seq<Point>>, oreTypes: set<int>, k: nat)
    requires CountFits(|kinds|) && KindsKnown(kinds, oreTypes)
    requires forall j :: 0 <= j < |kinds| ==> OreKindPackable(kinds[j])
    requires k < |Counted(kinds, OreKindBytes)|
    ensures ReadCounted(Counted(kinds, OreKindBytes)[..k], OreKindReader(oreTypes)) == Failure(Truncated)
  {
    forall j | 0 <= j < |kinds| ensures Delimited(OreKindReader(oreTypes), OreKindBytes, kinds[j]) {
      OreKindDelimited(kinds[j], oreTypes);
    }
    CountedCut(kinds, OreKindBytes, OreKindReader(oreTypes), k);
  }

  lemma OreChunkRejected(e: (Point, Dict<OreKind, seq<Point>>), oreTypes: set<int>)
    requires OreChunkPackable(e) && !KindsKnown(e.1, oreTypes)
    ensures FailsWith(OreChunkReader(oreTypes), OreChunkBytes, e, UnknownTag(oreTypes))
  {
    forall t ensures OreChunkReader(oreTypes)(OreChunkBytes(e) + t).Failure? &&
                     UnknownTag(oreTypes)(OreChunkReader(oreTypes)(OreChunkBytes(e) + t).error) {
      OreChunkRejectedBefore(e, oreTypes, t);
    }
  }

  lemma OreChunkRejectedBefore(e: (Point, Dict<OreKind, seq<Point>>), oreTypes: set<int>, t: seq<byte>)
    requires OreChunkPackable(e) && !KindsKnown(e.1, oreTypes)
    ensures ReadOreChunk(OreChunkBytes(e) + t, oreTypes).Failure?
    ensures UnknownTag(oreTypes)(ReadOreChunk(OreChunkBytes(e) + t, oreTypes).error)
  {
    var u := OreChunkBytes(e) + t;
    var r := Counted(e.1, OreKindBytes) + t;
    assert u == PointBytes(e.0) + r;
    PointReads(e.0);
    assert ReadPoint(u) == Success(Parsed(e.0, r));
    OreKindsRejected(e.1, oreTypes, t);
  }

  lemma OreKindsRejected(kinds: Dict<OreKind, seq<Point>>, oreTypes: set<int>, t: seq<byte>)
    requires CountFits(|kinds|) && !KindsKnown(kinds, oreTypes)
    requires forall j :: 0 <= j < |kinds| ==> OreKindPackable(kinds[j])
    ensures ReadCounted(Counted(kinds, OreKindBytes) + t, OreKindReader(oreTypes)).Failure?
    ensures UnknownTag(oreTypes)(ReadCounted(Counted(kinds, OreKindBytes) + t, OreKindReader(oreTypes)).error)
  {
    forall j | 0 <= j < |kinds|
      ensures Delimited(OreKindReader(oreTypes), OreKindBytes, kinds[j]) ||
              FailsWith(OreKindReader(oreTypes), OreKindBytes, kinds[j], UnknownTag(oreTypes))
    {
      if kinds[j].0 in oreTypes {
        OreKindDelimited(kinds[j], oreTypes);
      } else {
        OreKindRejected(kinds[j], oreTypes);
      }
    }
    var j :| 0 <= j < |kinds| && kinds[j].0 !in oreTypes;
    OreKindRejected(kinds[j], oreTypes);
    CountedFailsWith(kinds, OreKindBytes, OreKindReader(oreTypes), UnknownTag(oreTypes), t);
  }

  /**
    Reading the ore section assigns its chunks in stream order, each chunk's
    kinds assigned in stream order too: a repeated key ends up with the value
    of its last occurrence.
   */
  lemma OresRead(ores: Dict<Point, Dict<OreKind, seq<Point>>>, oreTypes: set<int>, t: seq<byte>)
    requires CountFits(|ores|)
    requires forall i :: 0 <= i < |ores| ==> OreChunkPackable(ores[i]) && KindsKnown(ores[i].1, oreTypes)
    ensures ReadOres(Counted(ores, OreChunkBytes) + t, oreTypes) == Success(Parsed(FromEntries(MapSeq(ores, AssignedKinds)), t))
  {
    forall i | 0 <= i < |ores| ensures ReadsAs(OreChunkReader(oreTypes), OreChunkBytes, ores[i], AssignedKinds(ores[i])) {
      OreChunkReads(ores[i], oreTypes);
    }
    CountedReadsAs(ores, OreChunkBytes, AssignedKinds, OreChunkReader(oreTypes), t);
  }

  lemma OresCut(ores: Dict<Point, Dict<OreKind, seq<Point>>>, oreTypes: set<int>, k: nat)
    requires CountFits(|ores|)
    requires forall i :: 0 <= i < |ores| ==> OreChunkPackable(ores[i]) && KindsKnown(ores[i].1, oreTypes)
    requires k < |Counted(ores, OreChunkBytes)|
    ensures ReadOres(Counted(ores, OreChunkBytes)[..k], oreTypes) == Failure(Truncated)
  {
    forall i | 0 <= i < |ores| ensures Delimited(OreChunkReader(oreTypes), OreChunkBytes, ores[i]) {
      OreChunkDelimited(ores[i], oreTypes);
    }
    CountedCut(ores, OreChunkBytes, OreChunkReader(oreTypes), k);
  }

  /** A valid ore section reads back exactly. */
  lemma OresReadBack(ores: Dict<Point, Dict<OreKind, seq<Point>>>, oreTypes: set<int>, t: seq<byte>)
    requires CountFits(|ores|) && UniqueKeys(ores)
    requires forall i :: 0 <= i < |ores| ==> OreChunkPackable(ores[i]) && OreKindsValid(ores[i].1, oreTypes)
    ensures ReadOres(Counted(ores, OreChunkBytes) + t, oreTypes) == Success(Parsed(ores, t))
  {
    OresRead(ores, oreTypes, t);
    AssignedKindsUnchanged(ores, oreTypes);
    FromEntriesUnique(ores);
  }

  lemma AssignedKindsUnchanged(ores: Dict<Point, Dict<OreKind, seq<Point>>>, oreTypes: set<int>)
    requires forall i :: 0 <= i < |ores| ==> OreKindsValid(ores[i].1, oreTypes)
    ensures MapSeq(ores, AssignedKinds) == ores
  {
    forall i | 0 <= i < |ores| ensures MapSeq(ores, AssignedKinds)[i] == ores[i] {
      FromEntriesUnique(ores[i].1);
    }
  }

  // ---- structures ----

  lemma StructureReads(st: Structure)
    requires StructurePackable(st)
    ensures Inverts(ReadStructure, StructureBytes, st)
  {
    forall t ensures ReadStructure(StructureBytes(st) + t) == Success(Parsed(st, t)) {
      assert StructureBytes(st) + t == I32Bytes(st.kind) + (PointBytes(st.position) + (PointListBytes(st.points) + t));
      ReadI32Bytes(st.kind, PointBytes(st.position) + (PointListBytes(st.points) + t));
      PointReads(st.position);
      PointListReads(st.points, t);
    }
  }

  /** A structure cut after `k` of its bytes is a short read. */
  lemma StructureCutAt(st: Structure, k: nat)
    requires StructurePackable(st)
    requires k < |StructureBytes(st)|
    ensures ReadStructure(StructureBytes(st)[..k]) == Failure(Truncated)
  {
    var tail := PointBytes(st.position) + PointListBytes(st.points);
    assert StructureBytes(st) == I32Bytes(st.kind) + tail;
    CutConcat(I32Bytes(st.kind), tail, k);
    if k >= 4 {
      ReadI32Bytes(st.kind, tail[..k - 4]);
      CutConcat(PointBytes(st.position), PointListBytes(st.points), k - 4);
      PointDelimited(st.position);
      if k >= 12 {
        PointReads(st.position);
        PointListCut(st.points, k - 12);
      }
    }
  }

  lemma StructureDelimited(st: Structure)
    requires StructurePackable(st)
    ensures Delimited(ReadStructure, StructureBytes, st)
  {
    StructureReads(st);
    forall k | 0 <= k < |StructureBytes(st)| ensures ReadStructure(StructureBytes(st)[..k]) == Failure(Truncated) {
      StructureCutAt(st, k);
    }
  }

  lemma StructureChunkReads(e: (Point, seq<Structure>))
    requires StructureChunkPackable(e)
    ensures Inverts(ReadStructureChunk, StructureChunkBytes, e)
  {
    forall t ensures ReadStructureChunk(StructureChunkBytes(e) + t) == Success(Parsed(e, t)) {
      assert StructureChunkBytes(e) + t == PointBytes(e.0) + (Counted(e.1, StructureBytes) + t);
      PointReads(e.0);
      forall j | 0 <= j < |e.1| ensures Inverts(ReadStructure, StructureBytes, e.1[j]) {
        StructureReads(e.1[j]);
      }
      CountedInverts(e.1, StructureBytes, ReadStructure, t);
    }
  }

  lemma StructureChunkDelimited(e: (Point, seq<Structure>))
    requires StructureChunkPackable(e)
    ensures Delimited(ReadStructureChunk, StructureChunkBytes, e)
  {
    StructureChunkReads(e);
    forall k | 0 <= k < |StructureChunkBytes(e)| ensures ReadStructureChunk(StructureChunkBytes(e)[..k]) == Failure(Truncated) {
      StructureChunkCutAt(e, k);
    }
  }

  lemma StructureChunkCutAt(e: (Point, seq<Structure>), k: nat)
    requires StructureChunkPackable(e)
    requires k < |StructureChunkBytes(e)|
    ensures ReadStructureChunk(StructureChunkBytes(e)[..k]) == Failure(Truncated)
  {
    var u := StructureChunkBytes(e)[..k];
    CutConcat(PointBytes(e.0), Counted(e.1, StructureBytes), k);
    if k < 8 {
      PointDelimited(e.0);
      assert ReadPoint(u) == Failure(Truncated);
    } else {
      var r := Counted(e.1, StructureBytes)[..k - 8];
      assert u == PointBytes(e.0) + r;
      PointReads(e.0);
      assert ReadPoint(u) == Success(Parsed(e.0, r));
      StructureListCut(e.1, k - 8);
    }
  }

  lemma StructureListCut(sts: seq<Structure>, k: nat)
    requires CountFits(|sts|)
    requires forall j :: 0 <= j < |sts| ==> StructurePackable(sts[j])
    requires k < |Counted(sts, StructureBytes)|
    ensures ReadCounted(Counted(sts, StructureBytes)[..k], ReadStructure) == Failure(Truncated)
  {
    forall j | 0 <= j < |sts| ensures Delimited(ReadStructure, StructureBytes, sts[j]) {
      StructureDelimited(sts[j]);
    }
    CountedCut(sts, StructureBytes, ReadStructure, k);
  }

  /** Reading the structure section assigns its chunks in stream order: a repeated chunk keeps its last list. */
  lemma StructuresRead(structures: Dict<Point, seq<Structure>>, t: seq<byte>)
    requires CountFits(|structures|)
    requires forall i :: 0 <= i < |structures| ==> StructureChunkPackable(structures[i])
    ensures ReadStructures(Counted(structures, StructureChunkBytes) + t) == Success(Parsed(FromEntries(structures), t))
  {
    forall i | 0 <= i < |structures| ensures Inverts(ReadStructureChunk, StructureChunkBytes, structures[i]) {
      StructureChunkReads(structures[i]);
    }
    CountedInverts(structures, StructureChunkBytes, ReadStructureChunk, t);
  }

  lemma StructuresCut(structures: Dict<Point, seq<Structure>>, k: nat)
    requires CountFits(|structures|)
    requires forall i :: 0 <= i < |structures| ==> StructureChunkPackable(structures[i])
    requires k < |Counted(structures, StructureChunkBytes)|
    ensures ReadStructures(Counted(structures, StructureChunkBytes)[..k]) == Failure(Truncated)
  {
    forall i | 0 <= i < |structures| ensures Delimited(ReadStructureChunk, StructureChunkBytes, structures[i]) {
      StructureChunkDelimited(structures[i]);
    }
    CountedCut(structures, StructureChunkBytes, ReadStructureChunk, k);
  }

  // ---- buildings ----

  lemma BuildingReads(b: Building)
    requires BuildingPackable(b)
    ensures Inverts(ReadBuilding, BuildingBytes, b)
  {
    forall t ensures ReadBuilding(BuildingBytes(b) + t) == Success(Parsed(b, t)) {
      assert BuildingBytes(b) + t == PointBytes(b.position) + (PointListBytes(b.points) + t);
      PointReads(b.position);
      PointListReads(b.points, t);
    }
  }

  lemma BuildingDelimited(b: Building)
    requires BuildingPackable(b)
    ensures Delimited(ReadBuilding, BuildingBytes, b)
  {
    BuildingReads(b);
    forall k | 0 <= k < |BuildingBytes(b)| ensures ReadBuilding(BuildingBytes(b)[..k]) == Failure(Truncated) {
      CutConcat(PointBytes(b.position), PointListBytes(b.points), k);
      PointDelimited(b.position);
      if k >= 8 {
        PointReads(b.position);
        PointListCut(b.points, k - 8);
      }
    }
  }

  lemma BuildingsRead(buildings: seq<Building>, t: seq<byte>)
    requires CountFits(|buildings|)
    requires forall i :: 0 <= i < |buildings| ==> BuildingPackable(buildings[i])
    ensures ReadCounted(Counted(buildings, BuildingBytes) + t, ReadBuilding) == Success(Parsed(buildings, t))
  {
    forall i | 0 <= i < |buildings| ensures Inverts(ReadBuilding, BuildingBytes, buildings[i]) {
      BuildingReads(buildings[i]);
    }
    CountedInverts(buildings, BuildingBytes, ReadBuilding, t);
  }

  lemma BuildingsCut(buildings: seq<Building>, k: nat)
    requires CountFits(|buildings|)
    requires forall i :: 0 <= i < |buildings| ==> BuildingPackable(buildings[i])
    requires k < |Counted(buildings, BuildingBytes)|
    ensures ReadCounted(Counted(buildings, BuildingBytes)[..k], ReadBuilding) == Failure(Truncated)
  {
    forall i | 0 <= i < |buildings| ensures Delimited(ReadBuilding, BuildingBytes, buildings[i]) {
      BuildingDelimited(buildings[i]);
    }
    CountedCut(buildings, BuildingBytes, ReadBuilding, k);
  }
}

=== FILE: saver.dfy ===
/**
  The map file codec: `save_map` flattens a world into bytes and `load_map`
  reads them back. Every integer is a little-endian 32-bit field, except the
  four signature bytes and the one-byte ore kind.
 */
module Saver {
  import opened Bytes
  import opened Dict
  import opened Fields
  import opened Model

  /** The four bytes `'M' 'A' 'P' 0` every map file starts with. */
  const Signature: seq<byte> := [77, 65, 80, 0]

  // ---- save_map ----

  function PointBytes(p: Point): seq<byte> {
    I32Bytes(p.x) + I32Bytes(p.y)
  }

  function PointListBytes(ps: seq<Point>): seq<byte> {
    Counted(ps, PointBytes)
  }

  /** One ore kind of a chunk: its tag byte, then its points. */
  function OreKindBytes(e: (OreKind, seq<Point>)): seq<byte> {
    [ByteOf(e.0)] + PointListBytes(e.1)
  }

  /** One chunk of the ore section: the chunk position, then its ore kinds. */
  function OreChunkBytes(e: (Point, Dict<OreKind, seq<Point>>)): seq<byte> {
    PointBytes(e.0) + Counted(e.1, OreKindBytes)
  }

  function StructureBytes(s: Structure): seq<byte> {
    I32Bytes(s.kind) + PointBytes(s.position) + PointListBytes(s.points)
  }

  function StructureChunkBytes(e: (Point, seq<Structure>)): seq<byte> {
    PointBytes(e.0) + Counted(e.1, StructureBytes)
  }

  function BuildingBytes(b: Building): seq<byte> {
    PointBytes(b.position) + PointListBytes(b.points)
  }

  function RowBytes(row: seq<uint32>): seq<byte> {
    Concat(row, WordBytes)
  }

  /** One noise chunk: its position, `len(chunk)`, then the samples of `chunk[0]` row by row. */
  function NoiseChunkBytes(e: (Point, NoiseChunk)): seq<byte> {
    PointBytes(e.0) + I32Bytes(1 + e.1.others) + Concat(e.1.grid, RowBytes)
  }

  /** The noise section: the chunk size, then the chunks. */
  function NoiseBytes(chunkSize: int, chunks: Dict<Point, NoiseChunk>): seq<byte> {
    I32Bytes(chunkSize) + Counted(chunks, NoiseChunkBytes)
  }

  /** The ore, structure and building sections, one after the other. */
  function ObjectSections<C>(w: World<C>): seq<byte> {
    Counted(w.ores, OreChunkBytes) + (Counted(w.structures, StructureChunkBytes) + Counted(w.buildings, BuildingBytes))
  }

  /** Everything before the noise section. */
  function ObjectBytes<C>(w: World<C>): seq<byte> {
    Signature + I32Bytes(w.seed) + ObjectSections(w)
  }

  /** The bytes `save_map` writes for `w`, given the generator's `CHUNK_SIZE`. */
  function Encode(w: World<NoiseChunk>, chunkSize: int): seq<byte> {
    ObjectBytes(w) + NoiseBytes(chunkSize, w.chunks)
  }

  /**
    `save_map`: the file contents, or the error `struct.pack` raises on the
    first integer that does not fit its field.
   */
  function Save(w: World<NoiseChunk>, chunkSize: int): (r: Result<seq<byte>>)
    ensures r.Success? <==> Packable(w, chunkSize)
    ensures r.Success? ==> |r.value| >= 28 && r.value[..4] == Signature
    ensures r.Success? ==> r.value[4..8] == I32Bytes(w.seed)
    ensures r.Failure? ==> r.error == OutOfRange
  {
    if Packable(w, chunkSize) then Success(Encode(w, chunkSize)) else Failure(OutOfRange)
  }

  // ---- load_map ----

  /** The first four bytes, which must be the signature. */
  function ReadSignature(s: seq<byte>): (r: Read<()>)
    ensures r.Success? <==> |s| >= 4 && s[..4] == Signature
    ensures r.Success? ==> r.value.rest == s[4..]
    ensures r.Failure? ==> r.error == (if |s| < 4 then Truncated else InvalidFormat)
  {
    if |s| < 4 then Failure(Truncated)
    else if s[..4] != Signature then Failure(InvalidFormat)
    else Success(Parsed((), s[4..]))
  }

  /** `struct.unpack('ii', f.read(8))` as a point. */
  function ReadPoint(s: seq<byte>): Read<Point> {
    var x :- ReadI32(s);
    var y :- ReadI32(x.rest);
    Success(Parsed(Point(x.value, y.value), y.rest))
  }

  function ReadPointList(s: seq<byte>): Read<seq<Point>> {
    ReadCounted(s, ReadPoint)
  }

  /** One ore kind: the tag must name an `OreType` member, whose points follow. */
  function ReadOreKind(s: seq<byte>, oreTypes: set<int>): Read<(OreKind, seq<Point>)> {
    var tag :- ReadByte(s);
    if tag.value !in oreTypes then Failure(InvalidOreType(tag.value))
    else
      var points :- ReadPointList(tag.rest);
      Success(Parsed((tag.value as int, points.value), points.rest))
  }

  function OreKindReader(oreTypes: set<int>): seq<byte> -> Read<(OreKind, seq<Point>)> {
    s => ReadOreKind(s, oreTypes)
  }

  /** One chunk of the ore section; its ore kinds are assigned into a fresh dict. */
  function ReadOreChunk(s: seq<byte>, oreTypes: set<int>): Read<(Point, Dict<OreKind, seq<Point>>)> {
    var key :- ReadPoint(s);
    var kinds :- ReadCounted(key.rest, OreKindReader(oreTypes));
    Success(Parsed((key.value, FromEntries(kinds.value)), kinds.rest))
  }

  function OreChunkReader(oreTypes: set<int>): seq<byte> -> Read<(Point, Dict<OreKind, seq<Point>>)> {
    s => ReadOreChunk(s, oreTypes)
  }

  /** The ore section, its chunks assigned into `map.ores` in stream order. */
  function ReadOres(s: seq<byte>, oreTypes: set<int>): Read<Dict<Point, Dict<OreKind, seq<Point>>>> {
    var chunks :- ReadCounted(s, OreChunkReader(oreTypes));
    Success(Parsed(FromEntries(chunks.value), chunks.rest))
  }

  function ReadStructure(s: seq<byte>): Read<Structure> {
    var kind :- ReadI32(s);
    var position :- ReadPoint(kind.rest);
    var points :- ReadPointList(position.rest);
    Success(Parsed(Structure(kind.value, position.value, points.value), points.rest))
  }

  function ReadStructureChunk(s: seq<byte>): Read<(Point, seq<Structure>)> {
    var key :- ReadPoint(s);
    var structures :- ReadCounted(key.rest, ReadStructure);
    Success(Parsed((key.value, structures.value), structures.rest))
  }

  /** The structure section, its chunks assigned into `map.structures` in stream order. */
  function ReadStructures(s: seq<byte>): Read<Dict<Point, seq<Structure>>> {
    var chunks :- ReadCounted(s, ReadStructureChunk);
    Success(Parsed(FromEntries(chunks.value), chunks.rest))
  }

  function ReadBuilding(s: seq<byte>): Read<Building> {
    var position :- ReadPoint(s);
    var points :- ReadPointList(position.rest);
    Success(Parsed(Building(position.value, points.value), points.rest))
  }

  /** Everything before the noise section, into `Map(seed)`. */
  function LoadObjects(s: seq<byte>, oreTypes: set<int>): (r: Read<World<Grid>>)
    ensures |s| < 4 ==> r == Failure(Truncated)
    ensures |s| >= 4 && s[..4] != Signature ==> r == Failure(InvalidFormat)
    ensures r.Success? ==> |s| >= 8 && s[..4] == Signature && r.value.value.seed == I32Of(s[4..8])
    ensures 4 <= |s| < 8 && s[..4] == Signature ==> r == Failure(Truncated)
    ensures r.Success? ==> r.value.value.chunks == []
  {
    var signature :- ReadSignature(s);
    var seed :- ReadI32(signature.rest);
    var ores :- ReadOres(seed.rest, oreTypes);
    var structures :- ReadStructures(ores.rest);
    var buildings :- ReadCounted(structures.rest, ReadBuilding);
    Success(Parsed(NewMap(seed.value).(ores := ores.value, structures := structures.value,
                                       buildings := buildings.value), buildings.rest))
  }

  function RowReader(size: int): seq<byte> -> Read<seq<uint32>> {
    s => ReadList(s, size, ReadWord)
  }

  /** `size` rows of `size` samples, row by row. */
  function ReadGrid(s: seq<byte>, size: int): Read<Grid> {
    ReadList(s, size, RowReader(size))
  }

  /** One noise chunk as `load_map` reads it: the position, then the grid. */
  function ReadNoiseChunk(s: seq<byte>, size: int): Read<(Point, Grid)> {
    var key :- ReadPoint(s);
    var grid :- ReadGrid(key.rest, size);
    Success(Parsed((key.value, grid.value), grid.rest))
  }

  /** One noise chunk read in step with `save_map`: the position, the row count, then the grid. */
  function ReadNoiseChunkFixed(s: seq<byte>, size: int): Read<(Point, Grid)> {
    var key :- ReadPoint(s);
    var rows :- ReadI32(key.rest);
    var grid :- ReadGrid(rows.rest, size);
    Success(Parsed((key.value, grid.value), grid.rest))
  }

  function NoiseChunkReader(size: int, fixed: bool): seq<byte> -> Read<(Point, Grid)> {
    s => if fixed then ReadNoiseChunkFixed(s, size) else ReadNoiseChunk(s, size)
  }

  /**
    The noise section: the stored chunk size, which bounds both grid loops,
    then the chunks, assigned into `map.perlin.chunks` in stream order.
   */
  function ReadNoise(s: seq<byte>, fixed: bool): Read<Dict<Point, Grid>> {
    var size :- ReadI32(s);
    var chunks :- ReadCounted(size.rest, NoiseChunkReader(size.value, fixed));
    Success(Parsed(FromEntries(chunks.value), chunks.rest))
  }

  /** `load_map` as written: the world, and the bytes it left unread. */
  function Load(s: seq<byte>, oreTypes: set<int>): (r: Read<World<Grid>>)
    ensures |s| < 4 ==> r == Failure(Truncated)
    ensures 4 <= |s| < 8 && s[..4] == Signature ==> r == Failure(Truncated)
    ensures |s| >= 4 && s[..4] != Signature ==> r == Failure(InvalidFormat)
    ensures r.Success? ==> |s| >= 8 && s[..4] == Signature && r.value.value.seed == I32Of(s[4..8])
  {
    var objects :- LoadObjects(s, oreTypes);
    var noise :- ReadNoise(objects.rest, false);
    Success(Parsed(objects.value.(chunks := noise.value), noise.rest))
  }

  /** `load_map` with the noise chunks read as `save_map` writes them. */
  function LoadFixed(s: seq<byte>, oreTypes: set<int>): (r: Read<World<Grid>>)
    ensures |s| < 4 ==> r == Failure(Truncated)
    ensures 4 <= |s| < 8 && s[..4] == Signature ==> r == Failure(Truncated)
    ensures |s| >= 4 && s[..4] != Signature ==> r == Failure(InvalidFormat)
    ensures r.Success? ==> |s| >= 8 && s[..4] == Signature && r.value.value.seed == I32Of(s[4..8])
  {
    var objects :- LoadObjects(s, oreTypes);
    var noise :- ReadNoise(objects.rest, true);
    Success(Parsed(objects.value.(chunks := noise.value), noise.rest))
  }
}

=== FILE: sizes.dfy ===
/**
  How many bytes `save_map` writes: a reference size for every record of the
  file, built from the field widths alone, and the proof that the encoder
  writes exactly that many.
 */
module Sizes {
  import opened Bytes
  import opened Dict
  import opened Fields
  import opened Model
  import opened Saver
  import opened NoiseCodec

  // ---- reference sizes ----

  /** A count, then two `i` fields per point. */
  function PointListSize(ps: seq<Point>): int {
    4 + 8 * |ps|
  }

  /** The `B` tag, then the points. */
  function OreKindSize(e: (OreKind, seq<Point>)): int {
    1 + PointListSize(e.1)
  }

  /** The position, a count, then the ore kinds. */
  function OreChunkSize(e: (Point, Dict<OreKind, seq<Point>>)): int {
    8 + 4 + Sum(e.1, OreKindSize)
  }

  /** The type, the position, then the footprint. */
  function StructureSize(s: Structure): int {
    4 + 8 + PointListSize(s.points)
  }

  function StructureChunkSize(e: (Point, seq<Structure>)): int {
    8 + 4 + Sum(e.1, StructureSize)
  }

  function BuildingSize(b: Building): int {
    8 + PointListSize(b.points)
  }

  /** The position, `len(chunk)`, then `chunkSize * chunkSize` samples of four bytes. */
  function NoiseChunkSize(chunkSize: int): int {
    8 + 4 + 4 * chunkSize * chunkSize
  }

  /** The signature, the seed, and the three counted object sections. */
  function ObjectsSize<C>(w: World<C>): int {
    4 + 4 + (4 + Sum(w.ores, OreChunkSize)) + (4 + Sum(w.structures, StructureChunkSize)) +
    (4 + Sum(w.buildings, BuildingSize))
  }

  /** The objects, then the chunk size, the chunk count and the chunks. */
  function EncodedSize(w: World<NoiseChunk>, chunkSize: int): int {
    ObjectsSize(w) + 4 + 4 + |w.chunks| * NoiseChunkSize(chunkSize)
  }

  // ---- the encoder writes exactly these sizes ----

  lemma PointListLength(ps: seq<Point>)
    ensures |PointListBytes(ps)| == PointListSize(ps)
  {
    ConcatUniformLength(ps, PointBytes, 8);
  }

  lemma OreKindLength(e: (OreKind, seq<Point>))
    ensures |OreKindBytes(e)| == OreKindSize(e)
  {
    PointListLength(e.1);
  }

  lemma OreChunkLength(e: (Point, Dict<OreKind, seq<Point>>))
    ensures |OreChunkBytes(e)| == OreChunkSize(e)
  {
    forall i | 0 <= i < |e.1| ensures |OreKindBytes(e.1[i])| == OreKindSize(e.1[i]) {
      OreKindLength(e.1[i]);
    }
    ConcatLength(e.1, OreKindBytes, OreKindSize);
  }

  lemma StructureLength(s: Structure)
    ensures |StructureBytes(s)| == StructureSize(s)
  {
    PointListLength(s.points);
  }

  lemma StructureChunkLength(e: (Point, seq<Structure>))
    ensures |StructureChunkBytes(e)| == StructureChunkSize(e)
  {
    forall i | 0 <= i < |e.1| ensures |StructureBytes(e.1[i])| == StructureSize(e.1[i]) {
      StructureLength(e.1[i]);
    }
    ConcatLength(e.1, StructureBytes, StructureSize);
  }

  lemma BuildingLength(b: Building)
    ensures |BuildingBytes(b)| == BuildingSize(b)
  {
    PointListLength(b.points);
  }

  /** Everything before the noise section takes the reference size of the objects. */
  lemma ObjectBytesLength<C>(w: World<C>)
    ensures |ObjectBytes(w)| == ObjectsSize(w)
  {
    forall i | 0 <= i < |w.ores| ensures |OreChunkBytes(w.ores[i])| == OreChunkSize(w.ores[i]) {
      OreChunkLength(w.ores[i]);
    }
    ConcatLength(w.ores, OreChunkBytes, OreChunkSize);
    forall i | 0 <= i < |w.structures|
      ensures |StructureChunkBytes(w.structures[i])| == StructureChunkSize(w.structures[i])
    {
      StructureChunkLength(w.structures[i]);
    }
    ConcatLength(w.structures, StructureChunkBytes, StructureChunkSize);
    forall i | 0 <= i < |w.buildings| ensures |BuildingBytes(w.buildings[i])| == BuildingSize(w.buildings[i]) {
      BuildingLength(w.buildings[i]);
    }
    ConcatLength(w.buildings, BuildingBytes, BuildingSize);
  }

  /** A square grid of side `chunkSize` is four bytes per sample. */
  lemma SquareGridWidth(chunkSize: int)
    requires chunkSize >= 0
    ensures GridWidth(chunkSize) == 4 * chunkSize * chunkSize
  {
  }

  /** Every chunk of the noise section takes the same size, set by the chunk size alone. */
  lemma NoiseBytesLength(chunkSize: int, chunks: Dict<Point, NoiseChunk>)
    requires forall i :: 0 <= i < |chunks| ==> IsSquare(chunks[i].1.grid, chunkSize)
    ensures |NoiseBytes(chunkSize, chunks)| == 8 + |chunks| * NoiseChunkSize(chunkSize)
  {
    if |chunks| > 0 {
      assert |chunks[0].1.grid| == chunkSize;
      SquareGridWidth(chunkSize);
      forall i | 0 <= i < |chunks| ensures |NoiseChunkBytes(chunks[i])| == NoiseChunkSize(chunkSize) {
        NoiseChunkLength(chunks[i], chunkSize);
      }
    }
    ConcatUniformLength(chunks, NoiseChunkBytes, NoiseChunkSize(chunkSize));
  }

  /** The file of a world whose grids are square takes its reference size. */
  lemma EncodeLength(w: World<NoiseChunk>, chunkSize: int)
    requires forall i :: 0 <= i < |w.chunks| ==> IsSquare(w.chunks[i].1.grid, chunkSize)
    ensures |Encode(w, chunkSize)| == EncodedSize(w, chunkSize)
  {
    ObjectBytesLength(w);
    NoiseBytesLength(chunkSize, w.chunks);
  }

  /** An empty world is 28 bytes: the signature, the seed, three empty sections, the chunk size and no chunks. */
  lemma EmptyWorldSize(seed: int, chunkSize: int)
    ensures |Encode(World(seed, [], [], [], []), chunkSize)| == 28
  {
    EncodeLength(World(seed, [], [], [], []), chunkSize);
  }
}
